=== FILE: README.md ===
# Almoxarifado stock ledger in Dafny

This project models the stock ledger of the Almoxarifado warehouse system
(Python and SQLite):

- **Stores.** The item store (`ItemRepository`, `ItemService`) and the
  movement store (`MovimentacaoRepository`).
- **Movement service.** `MovimentacaoService` records inbound (`entrada`)
  and outbound (`saída`) movements. It also rebuilds an item's
  opening and closing balance for a period.
- **Validators.** The two record validators, `Item.validar` and
  `Movimentacao.validar`.
- **Schema.** The constraints declared in `src/core/database.py`.
- **Legacy DAO.** The older `MovimentacaoDAO` in `models/movimentacao.py`.

The whole database is one immutable value, `Schema.Db`:

- the `itens` table as a map from id to `Item`;
- the `movimentacoes` table as a sequence in rowid order;
- the two AUTOINCREMENT counters.

Every write is a function from a database to a result paired with the new
database. A refused statement, a CHECK failure or a storage fault returns
the database unchanged, as the source's transactions roll back.

A storage fault (a connection, statement or commit that raises) is the
parameter `up` (or `connected` for the legacy DAO). The wall clock is the
parameter `now`.

The central invariant is the ledger relation `Schema.Balanced`:
`quantidade = saldo_inicial + Σentrada − Σsaída` for every item.

- Creating an item, recording a movement and deleting an item all keep it.
- An update that edits `quantidade` directly breaks it, unless the quantity
  stays the same.

Strings compare in code-point lexicographic order (`Text.StrLe`), which is
SQLite's BINARY collation over UTF-8. That is what makes date bounds on
`YYYY-MM-DD HH:MM:SS` text behave as they do:

- An end date `D` compared as `data <= 'D'` excludes the whole day `D`.
- With no start date, `historico_por_item` folds every movement into the
  opening balance and then again into the closing balance.

Both behaviours are stated as lemmas, not corrected.

Modules, one per file, follow the source:

- `Text`, `Dates`, `Sorting`: string order, strip, LIKE, date formats,
  ORDER BY.
- `Results`, `Records`: the records and their validators.
- `Ledger`: the signed fold over movements.
- `Schema`: the tables and their constraints.
- `ItemRepository`, `MovementRepository`, `MovementService`, `ItemService`,
  `LegacyMovementDao`.

The service wrappers `ItemService.listar_todos` and
`ItemService.buscar_por_id` only delegate to the repository (returning `[]`
or None on error). They are modelled by `ItemRepository.ListAll` and
`ItemRepository.FindById`.

## Model

| member | source | states |
|---|---|---|
| `Records.ValidateItem` | src/models/item.py:18-30 | the first failing check in the order name length 1..100, quantity ≥ 0, price ≥ 0, expiry date `YYYY-MM-DD` when present and non-empty; None exactly when all pass |
| `Records.DefaultItemRejected` | src/models/item.py:7-16 | a default item has no id, quantity 0 and initial balance 0, and is refused for its empty name |
| `Records.ValidateMovement` | src/models/movimentacao.py:15-26 | the first failing check in the order kind in {entrada, saída}, quantity > 0, non-empty responsible party (not stripped), timestamp `YYYY-MM-DD HH:MM:SS` |
| `Records.DefaultMovementRejected` | src/models/movimentacao.py:6-13 | a default movement is refused for its empty kind |
| `Schema.ItemRowCheck` | src/core/database.py:33-36 | an item row passes the table's CHECKs exactly when quantity ≥ 0 and price ≥ 0; otherwise the first one violated |
| `Schema.MovementRowCheck` | src/core/database.py:48-49 | a movement row passes exactly when its kind is in the closed set and its quantity is positive; otherwise the first CHECK violated |
| `Schema.ItemRows` | src/repositories/item_repository.py:118 | a table scan yields every stored item exactly once: same members, same count, no id repeated |
| `Text.StripEmptyIffBlank` | src/services/movimentacao_service.py:36 | `not s.strip()` holds exactly when every character of `s` is Python whitespace |
| `Text.SearchPatternIsContains` | src/repositories/item_repository.py:75-79 | for a term without `%` or `_`, `LIKE '%term%'` holds exactly when the name contains the term ignoring ASCII case |
| `Text.SearchPatternFindsEqualName` | src/services/item_service.py:87-88 | a name equal to the term up to ASCII case always matches `LIKE '%term%'`, wildcards or not |
| `Dates.ToDbDate` | src/utils/helpers.py:51-56 | every date `strptime("%d/%m/%Y")` accepts, including unpadded and space-padded day and month fields, becomes a valid `YYYY-MM-DD` naming the same year, month and day; anything else is returned unchanged |
| `Dates.BrToIso` | src/utils/helpers.py:54 | a parsed `D/M/YYYY` is written as a valid `YYYY-MM-DD` of the same day |
| `Dates.IsoBrRoundTrip` | src/utils/helpers.py:51-56 | a stored `YYYY-MM-DD` shown as `DD/MM/YYYY` parses and converts back to itself |
| `Dates.PaddedBrRoundTrip` | src/utils/helpers.py:51-56 | a zero-padded `DD/MM/YYYY` survives conversion to `YYYY-MM-DD` and back |
| `Dates.UnpaddedDateConverted` | src/utils/helpers.py:51-56 | `1/2/2024` is converted to `2024-02-01`, not passed through |
| `Dates.IntToString` | src/services/movimentacao_service.py:45 | the decimal text of the available stock reads back as that number |
| `Dates.TimestampAfterFloor` | src/services/movimentacao_service.py:79-83 | every well-formed timestamp sorts after the literal floor `0000-01-01` |
| `Dates.LowerDayBound` | src/repositories/movimentacao_repository.py:95-97 | `data >= D` for a date `D` holds exactly when the movement's day is `D` or later |
| `Dates.UpperDayBoundExcludesDay` | src/repositories/movimentacao_repository.py:98-100 | `data <= D` for a date `D` holds exactly when the movement's day is strictly before `D` |
| `Dates.StartOfDayBound` | models/movimentacao.py:77-79 | `data >= 'D 00:00:00'` holds exactly when the movement's day is `D` or later |
| `Dates.EndOfDayBound` | models/movimentacao.py:80-82 | `data <= 'D 23:59:59'` holds exactly when the movement's day is `D` or earlier |
| `Sorting.SortBy` | src/repositories/movimentacao_repository.py:62 | `ORDER BY key`: the result is ordered by the key in the requested direction and is a permutation of its input |
| `Ledger.NetIsInflowMinusOutflow` | src/services/movimentacao_service.py:97-101 | the signed fold equals Σ inbound quantities minus Σ quantities of every other kind |
| `Ledger.NetPermutation` | src/services/movimentacao_service.py:86-101 | the fold does not depend on the order the movements are listed in |
| `Ledger.NetSplitAtDate` | src/services/movimentacao_service.py:86-93 | the movements before a date and those from it add up to the whole ledger |
| `Ledger.BeforePermutation` | src/services/movimentacao_service.py:86-93 | folding only the movements before a date does not depend on list order |
| `Ledger.MovesOfAfterCascade` | src/core/database.py:53 | deleting one item's movements leaves every other item's movements as they were |
| `ItemRepository.Save` | src/repositories/item_repository.py:10-49 | an insert takes the next AUTOINCREMENT id and sets `saldo_inicial` to `quantidade`; an update rewrites the editable columns and keeps `id` and `saldo_inicial`; an update of an absent id reports success and changes nothing; a CHECK failure or fault changes nothing |
| `ItemRepository.InsertThenFind` | src/repositories/item_repository.py:16-29 | after an insert, looking up the new id returns the item with that id and `saldo_inicial = quantidade` |
| `ItemRepository.UpdateThenFind` | src/repositories/item_repository.py:30-42 | after an update, looking up the id returns the new columns with the stored id and `saldo_inicial` |
| `ItemRepository.FindById` | src/repositories/item_repository.py:52-70 | the stored item with that id; None when absent or on error |
| `ItemRepository.FindByName` | src/repositories/item_repository.py:73-83 | the items matching `LIKE '%term%'`, each once, ordered by name; `[]` on error |
| `ItemRepository.FindByNameIsContains` | src/repositories/item_repository.py:73-80 | for a term without wildcards, the result is exactly the items whose name contains the term ignoring ASCII case |
| `ItemRepository.ListAll` | src/repositories/item_repository.py:116-139 | every stored item once, ordered by name; `[]` on error |
| `ItemRepository.Remove` | src/repositories/item_repository.py:86-97 | `Removed` exactly when the id exists, and then the row and all its movements are gone; otherwise `NotFound` or a fault, with nothing changed |
| `ItemRepository.SavePreservesValid` | src/core/database.py:28-41 | both branches of `salvar` keep every schema constraint |
| `ItemRepository.InsertPreservesBalance` | src/repositories/item_repository.py:16-29 | creating an item keeps the ledger relation, since its new id has no movements yet |
| `ItemRepository.UpdateBalancedIffSameQuantity` | src/repositories/item_repository.py:30-42 | after an update the ledger relation holds exactly when the quantity was not changed |
| `ItemRepository.RemovePreservesInvariants` | src/core/database.py:53 | a cascading delete keeps the schema constraints and the ledger relation |
| `ItemRepository.DeletedIdNotReused` | src/core/database.py:30 | an item created after a delete gets an id larger than the deleted one |
| `MovementRepository.Record` | src/repositories/movimentacao_repository.py:8-39 | success exactly when the item exists, the kind is valid, the quantity is positive and the moved stock stays ≥ 0; then stock moves by +q (entrada) or −q (other) and one row is appended under the next id; the stock UPDATE re-checks only `quantidade >= 0`, as SQLite evaluates only the CHECKs that mention an assigned column; any refusal changes nothing, with the stock CHECK reported first, then the INSERT's kind and quantity checks, and the foreign key last |
| `MovementRepository.RecordPreservesValid` | src/repositories/movimentacao_repository.py:14-35 | recording keeps every schema constraint, including increasing movement ids |
| `MovementRepository.RecordPreservesBalance` | src/repositories/movimentacao_repository.py:14-31 | every committed movement moves the stock by exactly its signed quantity, so the ledger relation is kept |
| `MovementRepository.RecordThenListed` | src/repositories/movimentacao_repository.py:25-35 | a committed movement appears in its item's listing under its new id, one more occurrence than before |
| `MovementRepository.Window` | src/repositories/movimentacao_repository.py:94-100 | keeps exactly the movements with `data >= start` when a start is given and `data <= end` when an end is given |
| `MovementRepository.ListAll` | src/repositories/movimentacao_repository.py:42-81 | the movements inside the optional inclusive bounds, each once, ordered by date descending; `[]` on error |
| `MovementRepository.ListByItem` | src/repositories/movimentacao_repository.py:84-121 | the same, restricted to one item |
| `MovementRepository.UnboundedListingReconciles` | src/repositories/movimentacao_repository.py:84-121 | without bounds, `saldo_inicial` plus the fold of the listing is the stored stock |
| `MovementRepository.StartBoundAdmitsWholeDays` | src/repositories/movimentacao_repository.py:95-97 | a start date lists exactly the item's movements on that day or later |
| `MovementRepository.EndBoundExcludesEndDay` | src/repositories/movimentacao_repository.py:98-100 | an end date lists exactly the item's movements strictly before that day |
| `MovementService.RegisterMovement` | src/services/movimentacao_service.py:11-50 | refuses a bad kind, then a non-positive quantity, then a blank responsible party, then (outbound only) a missing item or insufficient stock, naming the available stock; an inbound movement on an unknown item fails on the foreign key; any refusal changes nothing; an admissible movement on an existing item whose stock stays ≥ 0 succeeds whenever storage is up, appending the stamped row exactly as the repository records it |
| `MovementService.RegisterPreservesInvariants` | src/services/movimentacao_service.py:28-47 | registering keeps the schema constraints, the ledger relation and the timestamp format |
| `MovementService.StockCheckMatchesSchema` | src/services/movimentacao_service.py:44-45 | for an outbound movement on an existing item, the service's stock check fires exactly when the schema's stock CHECK would |
| `MovementService.ServiceChecksImplyValidation` | src/services/movimentacao_service.py:29-37 | what the service admits passes `Movimentacao.validar` given a proper timestamp, while a responsible party of spaces passes `validar` but not the service |
| `MovementService.DbBound` | src/services/movimentacao_service.py:56-57 | a bound is supplied exactly when the user's date was non-empty; a date `strptime` accepts becomes the same day as `YYYY-MM-DD`, and any other text is passed to the query raw |
| `MovementService.ListAllInPeriod` | src/services/movimentacao_service.py:53-59 | every movement inside the converted bounds (unconvertible text compared raw), each exactly once (same multiset as the table's window), ordered by date descending |
| `MovementService.History` | src/services/movimentacao_service.py:62-103 | `([], 0, 0)` for an unknown item; otherwise each of the item's movements inside the converted window exactly once (same multiset), newest first, with closing = opening + Σ inbound − Σ other over them |
| `MovementService.FloorListsEverything` | src/services/movimentacao_service.py:79-83 | the "earlier" listing with the `0000-01-01` floor misses none of the item's movements |
| `MovementService.OpeningWithStart` | src/services/movimentacao_service.py:75-93 | with a start date, opening = `saldo_inicial` + fold of the item's movements dated before the converted start |
| `MovementService.ClosingWithStartOnlyIsStock` | src/services/movimentacao_service.py:95-103 | with a start date and no end date, the closing balance is the item's current stock |
| `MovementService.OpeningWithoutStartIsStock` | src/services/movimentacao_service.py:82-93 | with no start date, the opening balance is already the current stock, not `saldo_inicial` |
| `MovementService.UnboundedHistoryCountsTwice` | src/services/movimentacao_service.py:86-101 | with no dates, closing = 2·quantidade − saldo_inicial: every movement is folded twice |
| `MovementService.HistoryIsItemShareOfPeriod` | src/services/movimentacao_service.py:53-69 | an item's statement lists exactly that item's movements from the period listing over the same dates, each as often as there |
| `MovementService.HistoryOmitsEndDay` | src/services/movimentacao_service.py:65-69 | for any accepted end date, the statement lists no movement of that day itself |
| `ItemService.AnySameName` | src/services/item_service.py:88 | true exactly when some listed item has the same name up to ASCII case |
| `ItemService.ItemExists` | src/services/item_service.py:84-90 | a failed search counts as "does not exist" |
| `ItemService.ItemExistsIffSameName` | src/services/item_service.py:84-90 | the duplicate check holds exactly when some stored item has the same name up to ASCII case |
| `ItemService.Register` | src/services/item_service.py:10-25 | validation first, with its fault as the error; then a case-insensitive duplicate name is refused; a refusal changes nothing; a storage error is only ever the fault of an unavailable store, and an unknown item is never reported; a valid item with a new name succeeds whenever storage is up; an insert adds exactly the new id, whose row carries the item's fields with `saldo_inicial = quantidade`, and leaves every other row and the movements unchanged |
| `ItemService.RegisterKeepsNamesDistinct` | src/services/item_service.py:15-17 | registration keeps item names distinct up to ASCII case |
| `ItemService.RegisterPreservesInvariants` | src/services/item_service.py:10-19 | registering a new item keeps the schema constraints and the ledger relation |
| `ItemService.Update` | src/services/item_service.py:54-69 | validation first, then "not found" exactly when there is no such id (or no id at all); success rewrites the editable columns of that id only and keeps its `saldo_inicial`, every other row and the movements |
| `ItemService.UpdateBalancedIffQuantityKept` | src/services/item_service.py:54-63 | after a successful update the ledger relation holds exactly when the quantity is unchanged |
| `ItemService.RemoveItem` | src/services/item_service.py:71-82 | an unknown id (or a fault) gives "not found" with nothing changed; otherwise exactly that row and its movements are deleted, every other row unchanged |
| `ItemService.RemovedItemLeavesNoTrace` | src/services/item_service.py:74-78 | after a removal the item is not found, no movement of it is listed, and the invariants still hold |
| `ItemService.SearchByName` | src/services/item_service.py:35-44 | a blank query lists every item; any other is stripped and matched with `LIKE`; each matching row appears exactly once (same multiset as the stored rows, or the matching ones), ordered by name |
| `ItemService.SearchIsSubstringMatch` | src/services/item_service.py:38-41 | for a stripped query without wildcards, the result is exactly the items whose name contains it ignoring ASCII case |
| `ItemService.ValidatedItemPassesChecks` | src/models/item.py:22-25 | an item `validar` accepts passes the table's CHECKs as inserted or updated |
| `LegacyMovementDao.LegacyRecord` | models/movimentacao.py:22-65 | no connection gives "Erro ao conectar ao banco"; the INSERT's checks come first, kind before quantity, with no foreign key; then the stock UPDATE, which re-checks only `quantidade >= 0`, refuses stock going negative; the stock moves only when the item exists; a refusal rolls back both writes |
| `LegacyMovementDao.LegacyAgreesOnKnownItem` | models/movimentacao.py:30-58 | on an existing item the legacy and current `registrar` succeed alike and leave the same database |
| `LegacyMovementDao.LegacyCommitsOrphan` | models/movimentacao.py:30-43 | on an unknown item the legacy `registrar` commits a movement referring to nothing, which the current repository refuses with a foreign-key error |
| `LegacyMovementDao.OrphanAdoptedByNextItem` | models/movimentacao.py:30-58 | an orphan recorded under the next item id is inherited by the item created next, whose ledger relation then fails |
| `LegacyMovementDao.DayBound` | models/movimentacao.py:77-82 | a bound is supplied exactly when the date was given |
| `LegacyMovementDao.ListByItemWithFilters` | models/movimentacao.py:67-96 | an unparsable given date is an error carrying it (unpadded `D/M/YYYY` parses); otherwise the item's movements between the first second of the start day and the last second of the end day, newest first; `[]` without a connection |
| `LegacyMovementDao.FiltersCoverWholeDays` | models/movimentacao.py:77-82 | the legacy window lists exactly the item's movements from the start day through the end day, both inclusive |
| `LegacyMovementDao.FirstBalance` | models/movimentacao.py:98-113 | the current `quantidade` of the item; 0 when it is absent or there is no connection |
| `LegacyMovementDao.FirstBalanceIsCurrentBalance` | models/movimentacao.py:98-113 | under the ledger relation the value is the balance after every movement, equal to `saldo_inicial` only when the movements net to zero |
| `LegacyMovementDao.LegacyListByItem` | models/movimentacao.py:115-133 | every movement of the item once, newest first; `[]` without a connection |
| `LegacyMovementDao.UnfilteredListingsAgree` | models/movimentacao.py:67-96 | without dates, the filtered listing returns the same rows as the plain one |
| `LegacyMovementDao.Joined` | models/movimentacao.py:138-142 | the inner join pairs each movement whose item exists with that item's name and drops the rest |
| `LegacyMovementDao.LegacyListAll` | models/movimentacao.py:135-154 | the joined rows, each exactly once (same multiset as the join), newest first; `[]` without a connection |
| `LegacyMovementDao.ListAllDropsOnlyOrphans` | models/movimentacao.py:138-142 | while every movement refers to an item the join loses no row, and an orphan is never listed |

## Left out

- `Records.ValidateItem`: `strptime("%Y-%m-%d")` also accepts unpadded fields such as `2024-1-2`; the model accepts only the zero-padded `YYYY-MM-DD` the system itself writes.
- `Records.ValidateMovement`: `strptime("%Y-%m-%d %H:%M:%S")` also accepts unpadded fields such as `2024-1-2 9:5:7`; the model accepts only the zero-padded `YYYY-MM-DD HH:MM:SS` the system itself writes.
- `Dates.ToDbDate`: `\d` in `strptime` also matches non-ASCII decimal digits; the model accepts ASCII digits only. A year below 1000 keeps its four typed digits, whereas `strftime("%Y")` may write it unpadded.
- Case folding is ASCII only, which matches SQLite's LOWER and LIKE. Python's `str.lower()` in `_item_existe` folds all of Unicode; that difference is not modelled.
- Integers are unbounded. SQLite's 64-bit INTEGER overflow is not modelled.
- `preco`: a Python float is a `real` here. NaN and infinities are not modelled; the model only ever compares `preco` with zero.
- A `responsavel` of None (which makes `.strip()` raise inside the service's `except`) is not modelled; the parameter is always a string.
- Message texts from SQLite (`Schema.DbErrorText`) are representative; the exact wording of the driver's exception text is not modelled.
- The text of the Python ValueError raised by the legacy date filter is not modelled. The model's error carries the rejected date instead.
- The CLI and menus, `main.py`, logging, and the backup routine of `DatabaseManager` are not modelled.
- Migration and repair scripts are not modelled: `database/migrations.py`, the table rebuild in `database/db.py`, `corrigir_banco.py`, `verificar_banco.py` and `migrar_saldo_inicial.py`. The legacy DAO is modelled on the tables `src/core/database.py` declares.
- The legacy `ItemDAO` in `models/item.py` and `src/utils/validators.py` are not modelled.
- Concurrency and transaction isolation are not modelled: each operation is one atomic step on one database value.
- The wall clock (`datetime.now()`) is the parameter `now`. Connection and storage faults are the parameter `up`, or `connected` for the legacy DAO, with one value per operation. A fault that strikes only one of several statements in an operation is not distinguished from a fault in all of them.
- `MovementRepository.Record` does not check the movement's timestamp format, as the source does not. The preservation of the timestamp format is therefore stated only for timestamps the caller supplies well-formed.
- `ItemService.ItemExists`: its contract says only that a failed search gives false. Its full meaning is stated by `ItemService.ItemExistsIffSameName`.
- `LegacyMovementDao.DayBound`: its contract states only which bounds are supplied. What the bounds admit is stated by `LegacyMovementDao.FiltersCoverWholeDays`.

=== FILE: dates.dfy ===
/**
 The date and time strings the system stores and compares.

 Movement timestamps are written as `YYYY-MM-DD HH:MM:SS` (Python's
 `datetime.isoformat(sep=' ', timespec='seconds')`), period bounds typed by
 the user as `DD/MM/YYYY` are turned into `YYYY-MM-DD`, and every window
 filter compares these strings lexicographically. The lemmas here say what
 such a string comparison means in days.
 */
module Dates {
  import opened Text

  predicate IsDigit(c: char)
  {
    '0' <= c <= '9'
  }

  predicate AllDigits(s: string)
  {
    forall i :: 0 <= i < |s| ==> IsDigit(s[i])
  }

  function Digit(c: char): (r: int)
    requires IsDigit(c)
    ensures 0 <= r <= 9
  {
    c as int - '0' as int
  }

  /** The decimal value of a run of digits. */
  function Val(s: string): (r: nat)
    requires AllDigits(s)
    decreases |s|
  {
    if |s| == 0 then 0 else Val(s[..|s| - 1]) * 10 + Digit(s[|s| - 1])
  }

  lemma Val2(s: string)
    requires |s| == 2 && AllDigits(s)
    ensures Val(s) == 10 * Digit(s[0]) + Digit(s[1])
  {
    assert s[..|s| - 1] == s[..1];
    assert s[..1][..0] == [];
    assert Val(s[..1]) == Digit(s[0]);
  }

  lemma {:induction false} ValOfZeros(s: string)
    requires forall i :: 0 <= i < |s| ==> s[i] == '0'
    ensures AllDigits(s) && Val(s) == 0
  {
    if |s| > 0 {
      ValOfZeros(s[..|s| - 1]);
    }
  }

  function DigitChar(d: int): (c: char)
    requires 0 <= d <= 9
    ensures IsDigit(c) && Digit(c) == d
  {
    ('0' as int + d) as char
  }

  /** Python's `str(n)` for a natural number: its decimal digits, no leading zero. */
  function NatToString(n: nat): (r: string)
    ensures |r| > 0 && AllDigits(r)
    ensures Val(r) == n
    ensures r[0] == '0' ==> n == 0
    decreases n
  {
    var last := [DigitChar(n % 10)];
    if n < 10 then
      assert last[..0] == [];
      last
    else
      var front := NatToString(n / 10);
      var r := front + last;
      assert r[..|r| - 1] == front;
      r
  }

  /** Python's `str(n)` for any integer. */
  function IntToString(n: int): (r: string)
    ensures |r| > 0
    ensures n >= 0 ==> AllDigits(r) && Val(r) == n
    ensures n < 0 ==> r[0] == '-' && AllDigits(r[1..]) && Val(r[1..]) == -n
  {
    if n >= 0 then NatToString(n)
    else
      var r := "-" + NatToString(-n);
      assert r[1..] == NatToString(-n);
      r
  }

  /** Leap years of the proleptic Gregorian calendar Python's `datetime` uses. */
  predicate IsLeapYear(y: int)
  {
    (y % 4 == 0 && y % 100 != 0) || y % 400 == 0
  }

  function DaysInMonth(y: int, m: int): (r: int)
    requires 1 <= m <= 12
    ensures 28 <= r <= 31
    ensures m == 2 ==> (r == 29 <==> IsLeapYear(y))
  {
    if m == 2 then (if IsLeapYear(y) then 29 else 28)
    else if m == 4 || m == 6 || m == 9 || m == 11 then 30
    else 31
  }

  /** A zero-padded `YYYY-MM-DD` that `strptime(d, "%Y-%m-%d")` accepts. */
  predicate IsIsoDate(d: string)
  {
    && |d| == 10 && d[4] == '-' && d[7] == '-'
    && AllDigits(d[..4]) && AllDigits(d[5..7]) && AllDigits(d[8..])
    && 1 <= Val(d[..4])
    && 1 <= Val(d[5..7]) <= 12
    && 1 <= Val(d[8..]) <= DaysInMonth(Val(d[..4]), Val(d[5..7]))
  }

  /** A zero-padded `YYYY-MM-DD HH:MM:SS` that `strptime(t, "%Y-%m-%d %H:%M:%S")` accepts. */
  predicate IsTimestamp(t: string)
  {
    && |t| == 19 && IsIsoDate(t[..10])
    && t[10] == ' ' && t[13] == ':' && t[16] == ':'
    && AllDigits(t[11..13]) && AllDigits(t[14..16]) && AllDigits(t[17..])
    && Val(t[11..13]) <= 23 && Val(t[14..16]) <= 59 && Val(t[17..]) <= 59
  }

  /** The calendar day of a timestamp. */
  function Day(t: string): string
    requires |t| >= 10
  {
    t[..10]
  }

  /** The text `%d` matches in `strptime`: `3[01]`, `[12]\d`, `0[1-9]`, `[1-9]` or ` [1-9]`. */
  predicate IsDayField(f: string)
  {
    || (|f| == 1 && '1' <= f[0] <= '9')
    || (|f| == 2 && f[0] == ' ' && '1' <= f[1] <= '9')
    || (|f| == 2 && AllDigits(f) && 1 <= Val(f) <= 31)
  }

  /** The text `%m` matches: `1[0-2]`, `0[1-9]` or `[1-9]`. */
  predicate IsMonthField(f: string)
  {
    || (|f| == 1 && '1' <= f[0] <= '9')
    || (|f| == 2 && AllDigits(f) && 1 <= Val(f) <= 12)
  }

  /** The number a `%d` or `%m` field stands for. */
  function FieldVal(f: string): (r: int)
    requires IsDayField(f) || IsMonthField(f)
    ensures IsDayField(f) ==> 1 <= r <= 31
    ensures IsMonthField(f) ==> 1 <= r <= 12
  {
    if f[0] == ' ' then Digit(f[1])
    else if |f| == 1 then Digit(f[0])
    else Val(f)
  }

  /** Where the day field ends: at the first `/`, which a day field puts at position 1 or 2. */
  function DayEnd(s: string): int
  {
    if |s| > 1 && s[1] == '/' then 1 else 2
  }

  /** Where the month field ends: one or two characters after the first `/`. */
  function MonthEnd(s: string): int
  {
    var a := DayEnd(s);
    if |s| > a + 2 && s[a + 2] == '/' then a + 2 else a + 3
  }

  /**
   `strptime(s, "%d/%m/%Y")` succeeds: a day field, `/`, a month field,
   `/`, four year digits and nothing after them, naming a date that exists
   in year 1 or later. The fields hold no `/`, so the two separators sit
   where `DayEnd` and `MonthEnd` look for them.
   */
  predicate IsBrDate(s: string)
  {
    var a, b := DayEnd(s), MonthEnd(s);
    && |s| == b + 5 && s[a] == '/' && s[b] == '/'
    && IsDayField(s[..a]) && IsMonthField(s[a + 1..b]) && AllDigits(s[b + 1..])
    && 1 <= Val(s[b + 1..])
    && FieldVal(s[..a]) <= DaysInMonth(Val(s[b + 1..]), FieldVal(s[a + 1..b]))
  }

  function BrDay(s: string): int
    requires IsBrDate(s)
  {
    FieldVal(s[..DayEnd(s)])
  }

  function BrMonth(s: string): int
    requires IsBrDate(s)
  {
    FieldVal(s[DayEnd(s) + 1..MonthEnd(s)])
  }

  /** The four year digits, as typed. */
  function BrYear(s: string): string
    requires IsBrDate(s)
  {
    s[MonthEnd(s) + 1..]
  }

  /** The ISO date `d` names the year, month and day of the user's `s`. */
  predicate Denotes(s: string, d: string)
  {
    && IsBrDate(s) && IsIsoDate(d)
    && d[..4] == BrYear(s) && Val(d[5..7]) == BrMonth(s) && Val(d[8..]) == BrDay(s)
  }

  /** `%02d`. */
  function Pad2(n: int): (r: string)
    requires 0 <= n <= 99
    ensures |r| == 2 && AllDigits(r) && Val(r) == n
  {
    var r := [DigitChar(n / 10), DigitChar(n % 10)];
    Val2(r);
    r
  }

  lemma Pad2Val(x: string)
    requires |x| == 2 && AllDigits(x)
    ensures Val(x) <= 99 && Pad2(Val(x)) == x
  {
    Val2(x);
    var p := Pad2(Val(x));
    assert p[0] == DigitChar(Digit(x[0])) == x[0];
    assert p[1] == DigitChar(Digit(x[1])) == x[1];
  }

  /** `strptime(s, "%d/%m/%Y").strftime("%Y-%m-%d")`: the same date, zero-padded, year first. */
  function BrToIso(s: string): (r: string)
    requires IsBrDate(s)
    ensures Denotes(s, r)
  {
    var y, m, d := BrYear(s), Pad2(BrMonth(s)), Pad2(BrDay(s));
    var r := y + "-" + m + "-" + d;
    assert r[..4] == y && r[5..7] == m && r[8..] == d;
    r
  }

  /** `YYYY-MM-DD` rearranged as `DD/MM/YYYY`. */
  function IsoToBr(d: string): string
    requires |d| == 10
  {
    d[8..] + "/" + d[5..7] + "/" + d[..4]
  }

  /** An ISO date written as `DD/MM/YYYY` is read back by `strptime`, both fields two digits long. */
  lemma IsoAsBrParses(d: string)
    requires IsIsoDate(d)
    ensures IsBrDate(IsoToBr(d)) && DayEnd(IsoToBr(d)) == 2 && MonthEnd(IsoToBr(d)) == 5
    ensures BrYear(IsoToBr(d)) == d[..4] && BrMonth(IsoToBr(d)) == Val(d[5..7]) && BrDay(IsoToBr(d)) == Val(d[8..])
  {
    var s := IsoToBr(d);
    assert s[..2] == d[8..] && s[3..5] == d[5..7] && s[6..] == d[..4];
  }

  /** Writing an ISO date as `DD/MM/YYYY` and converting it back gives the same date. */
  lemma IsoBrRoundTrip(d: string)
    requires IsIsoDate(d)
    ensures IsBrDate(IsoToBr(d)) && BrToIso(IsoToBr(d)) == d
  {
    IsoAsBrParses(d);
    Pad2Val(d[5..7]);
    Pad2Val(d[8..]);
    var r := BrToIso(IsoToBr(d));
    assert r[..4] == d[..4] && r[5..7] == d[5..7] && r[8..] == d[8..];
    assert r == r[..4] + "-" + r[5..7] + "-" + r[8..];
    assert d == d[..4] + "-" + d[5..7] + "-" + d[8..];
  }

  /** A zero-padded `DD/MM/YYYY` survives the trip through ISO unchanged. */
  lemma PaddedBrRoundTrip(s: string)
    requires IsBrDate(s) && |s| == 10 && s[0] != ' '
    ensures IsoToBr(BrToIso(s)) == s
  {
    assert DayEnd(s) == 2 && MonthEnd(s) == 5;
    Pad2Val(s[..2]);
    Pad2Val(s[3..5]);
    var r := BrToIso(s);
    assert r[8..] == s[..2] && r[5..7] == s[3..5] && r[..4] == s[6..];
    assert s == s[..2] + "/" + s[3..5] + "/" + s[6..];
  }

  /**
   `converter_data_para_banco`: whatever `strptime` reads as `%d/%m/%Y`,
   padded or not, becomes the same date as `YYYY-MM-DD`; anything else is
   returned unchanged.
   */
  function ToDbDate(s: string): (r: string)
    ensures IsBrDate(s) ==> Denotes(s, r)
    ensures !IsBrDate(s) ==> r == s
    ensures |s| > 0 ==> |r| > 0
  {
    if IsBrDate(s) then BrToIso(s) else s
  }

  lemma Val2024()
    ensures AllDigits("2024") && Val("2024") == 2024
  {
    assert "2024"[..3] == "202" && "202"[..2] == "20" && "20"[..1] == "2" && "2"[..0] == "";
  }

  /** `1/2/2024` is 1 February 2024, not a string passed through. */
  lemma UnpaddedDateConverted()
    ensures IsBrDate("1/2/2024") && ToDbDate("1/2/2024") == "2024-02-01"
  {
    var s := "1/2/2024";
    assert DayEnd(s) == 1 && MonthEnd(s) == 3;
    assert s[..1] == "1" && s[2..3] == "2" && s[4..] == "2024";
    Val2024();
    assert IsBrDate(s);
    assert Pad2(2) == "02" && Pad2(1) == "01";
  }

  /** Every timestamp sorts after the literal `0000-01-01`, since years start at 1. */
  lemma TimestampAfterFloor(t: string)
    requires IsTimestamp(t)
    ensures StrLt("0000-01-01", t)
  {
    var d := t[..10];
    assert d[..4] == t[..4];
    PointwiseLe("0000", t[..4]) by {
      forall i | 0 <= i < 4 ensures "0000"[i] <= t[..4][i] {
        assert IsDigit(d[..4][i]);
      }
    }
    assert AllDigits("0000");
    assert t[..4] != "0000" by {
      assert Val(d[..4]) >= 1;
      ValOfZeros("0000");
    }
    assert "0000-01-01" == "0000" + "-01-01";
    assert t == t[..4] + t[4..];
    ConcatCompare("0000", "-01-01", t[..4], t[4..]);
  }

  /** A lower bound `d` on timestamps (`data >= d`) admits whole days: those from `d` on. */
  lemma LowerDayBound(t: string, d: string)
    requires IsTimestamp(t) && |d| == 10
    ensures StrLe(d, t) <==> StrLe(d, Day(t))
  {
    assert d + "" == d;
    assert t == t[..10] + t[10..];
    ConcatCompare(d, "", t[..10], t[10..]);
    assert StrLe("", t[10..]);
    assert StrLe(d, t) <==> StrLt(d, t[..10]) || d == t[..10];
    if d == t[..10] {
      StrLeReflexive(d);
    }
  }

  /**
   An upper bound `d` on timestamps (`data <= d`) admits only the days
   strictly before `d`: `"D hh:mm:ss" > "D"` excludes the whole end day.
   */
  lemma UpperDayBoundExcludesDay(t: string, d: string)
    requires IsTimestamp(t) && |d| == 10
    ensures StrLe(t, d) <==> StrLt(Day(t), d)
  {
    assert d + "" == d;
    assert t == t[..10] + t[10..];
    ConcatCompare(t[..10], t[10..], d, "");
  }

  /** `"D 00:00:00" <= t` exactly when `t` falls on day `D` or later. */
  lemma StartOfDayBound(t: string, d: string)
    requires IsTimestamp(t) && |d| == 10
    ensures StrLe(d + " 00:00:00", t) <==> StrLe(d, Day(t))
  {
    var rest := t[10..];
    assert t == t[..10] + rest;
    PointwiseLe(" 00:00:00", rest) by {
      assert rest[1..3] == t[11..13] && rest[4..6] == t[14..16] && rest[7..] == t[17..];
      assert IsDigit(rest[1..3][0]) && IsDigit(rest[1..3][1]);
      assert IsDigit(rest[4..6][0]) && IsDigit(rest[4..6][1]);
      assert IsDigit(rest[7..][0]) && IsDigit(rest[7..][1]);
    }
    ConcatCompare(d, " 00:00:00", t[..10], rest);
    if d == t[..10] {
      StrLeReflexive(d);
    }
  }

  /** Every time of day is at most `23:59:59`. */
  lemma TimeOfDayAtMostLast(t: string)
    requires IsTimestamp(t)
    ensures StrLe(t[10..], " 23:59:59")
  {
    var hh := t[11..13];
    Val2(hh);
    Val2(t[14..16]);
    var rest := t[10..];
    assert rest == rest[..3] + rest[3..];
    assert " 23:59:59" == " 23" + ":59:59";
    assert rest[..3] == [' '] + hh;
    assert StrLe(hh, "23") by {
      assert IsDigit(hh[0]) && IsDigit(hh[1]);
      if hh[0] == '2' {
        assert hh[1] <= '3';
        assert StrLe(hh[1..], "23"[1..]);
      }
    }
    assert StrLe(rest[..3], " 23") by {
      assert rest[..3][1..] == hh;
    }
    PointwiseLe(rest[3..], ":59:59") by {
      assert rest[3..][1..3] == t[14..16] && rest[3..][4..] == t[17..];
      assert IsDigit(t[14..16][1]) && IsDigit(t[17..][0]) && IsDigit(t[17..][1]);
      Val2(t[17..]);
    }
    ConcatCompare(rest[..3], rest[3..], " 23", ":59:59");
  }

  /** `t <= "D 23:59:59"` exactly when `t` falls on day `D` or earlier. */
  lemma EndOfDayBound(t: string, d: string)
    requires IsTimestamp(t) && |d| == 10
    ensures StrLe(t, d + " 23:59:59") <==> StrLe(Day(t), d)
  {
    assert t == t[..10] + t[10..];
    TimeOfDayAtMostLast(t);
    ConcatCompare(t[..10], t[10..], d, " 23:59:59");
    if d == t[..10] {
      StrLeReflexive(d);
    }
  }
}

=== FILE: item_repository.dfy ===
/**
 `ItemRepository`: the SQL statements on table `itens`, each run in its
 own connection and committed on success. `up == false` stands for a
 connection, statement or commit that raises; the repository then reports
 the error (or an empty answer) and the database is left as it was.
 */
module ItemRepository {
  import opened Results
  import opened Records
  import opened Ledger
  import opened Schema
  import opened Text
  import opened Sorting

  /** The columns an UPDATE of `salvar` rewrites: all but `id` and `saldo_inicial`. */
  predicate SameEditableFields(a: Item, b: Item)
  {
    && a.nome == b.nome && a.marca == b.marca && a.quantidade == b.quantidade
    && a.unidade == b.unidade && a.preco == b.preco && a.tipo == b.tipo
    && a.descricao == b.descricao && a.dataValidade == b.dataValidade
  }

  /** The row an INSERT of `salvar` writes: the new id, and `saldo_inicial` taken from `quantidade`. */
  function InsertedRow(item: Item, id: int): Item
  {
    item.(id := Some(id), saldoInicial := item.quantidade)
  }

  /** The row an UPDATE of `salvar` leaves: the editable columns from `item`, the rest kept. */
  function UpdatedRow(stored: Item, item: Item): Item
  {
    item.(id := stored.id, saldoInicial := stored.saldoInicial)
  }

  /**
   `ItemRepository.salvar`: INSERT when `item.id` is None, else UPDATE by
   id. The result carries the row id (`item.id` after the call).
   */
  function Save(db: Db, item: Item, up: bool): (r: (Result<int, DbError>, Db))
    ensures r.0.Err? ==> r.1 == db
    ensures r.0.Ok? <==> up && (ItemRowCheck(item) == None || (item.id.Some? && item.id.value !in db.itens))
    ensures r.0.Err? ==> r.0.error == (if up then ItemRowCheck(item).value else Unavailable)
    ensures r.0.Ok? && item.id == None ==> r.0.value == db.nextItemId
    ensures r.0.Ok? && item.id == None && ItemsWellFormed(db) ==>
      && r.0.value !in db.itens
      && r.1.itens.Keys == db.itens.Keys + {r.0.value}
      && (forall k :: k in db.itens ==> r.1.itens[k] == db.itens[k])
      && r.1.itens[r.0.value].id == Some(r.0.value)
      && r.1.itens[r.0.value].saldoInicial == item.quantidade
      && SameEditableFields(r.1.itens[r.0.value], item)
      && r.1.movimentacoes == db.movimentacoes
      && r.1.nextItemId == db.nextItemId + 1 && r.1.nextMovId == db.nextMovId
    ensures r.0.Ok? && item.id.Some? ==>
      && r.0.value == item.id.value
      && r.1.itens.Keys == db.itens.Keys
      && (forall k :: k in db.itens && k != item.id.value ==> r.1.itens[k] == db.itens[k])
      && (item.id.value in db.itens ==>
            && SameEditableFields(r.1.itens[item.id.value], item)
            && r.1.itens[item.id.value].saldoInicial == db.itens[item.id.value].saldoInicial
            && r.1.itens[item.id.value].id == db.itens[item.id.value].id)
      && r.1.movimentacoes == db.movimentacoes
      && r.1.nextItemId == db.nextItemId && r.1.nextMovId == db.nextMovId
  {
    if !up then (Err(Unavailable), db)
    else match item.id
      case None =>
        (match ItemRowCheck(item)
         case Some(e) => (Err(e), db)
         case None =>
           var id := db.nextItemId;
           (Ok(id), db.(itens := db.itens[id := InsertedRow(item, id)], nextItemId := id + 1)))
      case Some(id) =>
        if id !in db.itens then (Ok(id), db)
        else
          (match ItemRowCheck(item)
           case Some(e) => (Err(e), db)
           case None => (Ok(id), db.(itens := db.itens[id := UpdatedRow(db.itens[id], item)])))
  }

  function SaveMessage(r: Result<int, DbError>): string
  {
    match r
    case Ok(_) => "Item salvo com sucesso"
    case Err(e) => "Erro ao salvar item: " + DbErrorText(e)
  }

  /** `ItemRepository.buscar_por_id`: the row with that id, or None when absent or on error. */
  function FindById(db: Db, id: int, up: bool): (r: Option<Item>)
    ensures r.Some? <==> up && id in db.itens
    ensures r.Some? ==> r.value == db.itens[id]
  {
    if up && id in db.itens then Some(db.itens[id]) else None
  }

  /** The rows whose name matches `LIKE '%term%'`, in the given order. */
  function NameMatches(rows: seq<Item>, term: string): (r: seq<Item>)
    ensures forall x :: x in r <==> x in rows && Like("%" + term + "%", x.nome)
  {
    if |rows| == 0 then []
    else
      (if Like("%" + term + "%", rows[0].nome) then [rows[0]] else [])
      + NameMatches(rows[1..], term)
  }

  function NameOf(it: Item): string
  {
    it.nome
  }

  /**
   `ItemRepository.buscar_por_nome`: `WHERE LOWER(nome) LIKE LOWER('%term%')
   ORDER BY nome`. The LOWER calls add nothing to LIKE's own ASCII case
   folding, and `term` is not escaped, so `%` and `_` in it act as wildcards.
   */
  function FindByName(db: Db, term: string, up: bool): (r: seq<Item>)
    ensures !up ==> r == []
    ensures up ==> SortedBy(r, NameOf, false)
    ensures up ==> multiset(r) == multiset(NameMatches(ItemRows(db), term))
  {
    if !up then [] else SortBy(NameMatches(ItemRows(db), term), NameOf, false)
  }

  /** For a term without wildcards the search is "the name contains the term, ignoring case". */
  lemma FindByNameIsContains(db: Db, term: string)
    requires !HasWildcard(term)
    ensures forall x :: x in FindByName(db, term, true) <==>
      IsRow(db, x) && ContainsIgnoringCase(x.nome, term)
  {
    var r := FindByName(db, term, true);
    forall x
      ensures x in r <==> IsRow(db, x) && ContainsIgnoringCase(x.nome, term)
    {
      assert x in r <==> x in multiset(r);
      SearchPatternIsContains(term, x.nome);
    }
  }

  /** What an INSERT stores is what `buscar_por_id` returns under the new id. */
  lemma InsertThenFind(db: Db, item: Item)
    requires ItemsWellFormed(db) && item.id == None && item.quantidade >= 0 && item.preco >= 0.0
    ensures Save(db, item, true).0.Ok?
    ensures FindById(Save(db, item, true).1, Save(db, item, true).0.value, true) ==
      Some(item.(id := Some(db.nextItemId), saldoInicial := item.quantidade))
  {
    var (r, after) := Save(db, item, true);
    var row := after.itens[r.value];
    assert SameEditableFields(row, item);
    assert row == item.(id := Some(db.nextItemId), saldoInicial := item.quantidade);
  }

  /** After an UPDATE `buscar_por_id` returns the new columns with the stored `saldo_inicial`. */
  lemma UpdateThenFind(db: Db, item: Item)
    requires item.id.Some? && item.id.value in db.itens && item.quantidade >= 0 && item.preco >= 0.0
    ensures Save(db, item, true).0 == Ok(item.id.value)
    ensures FindById(Save(db, item, true).1, item.id.value, true) ==
      Some(item.(id := db.itens[item.id.value].id, saldoInicial := db.itens[item.id.value].saldoInicial))
  {
    var (r, after) := Save(db, item, true);
    var row := after.itens[item.id.value];
    assert SameEditableFields(row, item);
  }

  /** `ItemRepository.listar_todos`: every row once, ordered by name; `[]` on error. */
  function ListAll(db: Db, up: bool): (r: seq<Item>)
    ensures !up ==> r == []
    ensures up ==> SortedBy(r, NameOf, false)
    ensures up ==> multiset(r) == multiset(ItemRows(db))
    ensures up ==> forall x :: x in r <==> IsRow(db, x)
    ensures up ==> |r| == |db.itens|
  {
    if !up then []
    else
      var r := SortBy(ItemRows(db), NameOf, false);
      assert forall x :: x in r <==> x in multiset(r);
      assert |r| == |multiset(r)|;
      r
  }

  datatype RemoveOutcome = Removed | NotFound | Failed(error: DbError)

  function RemoveMessage(o: RemoveOutcome): string
  {
    match o
    case Removed => "Item removido com sucesso"
    case NotFound => "Item não encontrado"
    case Failed(e) => "Erro ao remover item: " + DbErrorText(e)
  }

  /**
   `ItemRepository.remover`: `DELETE FROM itens WHERE id = ?`. The foreign
   key's ON DELETE CASCADE removes the item's movements with it; the
   outcome is `Removed` exactly when a row was deleted.
   */
  function Remove(db: Db, id: int, up: bool): (r: (RemoveOutcome, Db))
    ensures r.0 == Removed <==> up && id in db.itens
    ensures r.0 == NotFound <==> up && id !in db.itens
    ensures !up ==> r.0 == Failed(Unavailable)
    ensures r.0 != Removed ==> r.1 == db
    ensures r.0 == Removed ==>
      && r.1.itens == db.itens - {id}
      && (forall m :: m in r.1.movimentacoes <==> m in db.movimentacoes && m.itemId != id)
      && r.1.nextItemId == db.nextItemId && r.1.nextMovId == db.nextMovId
  {
    if !up then (Failed(Unavailable), db)
    else if id !in db.itens then (NotFound, db)
    else (Removed, db.(itens := db.itens - {id}, movimentacoes := MovesNotOf(db.movimentacoes, id)))
  }

  /** AUTOINCREMENT never hands out the id of a deleted item again. */
  lemma DeletedIdNotReused(db: Db, id: int, item: Item)
    requires ItemsWellFormed(db) && id in db.itens && item.id == None
    ensures var afterDelete := Remove(db, id, true).1;
      Save(afterDelete, item, true).0.Ok? ==> Save(afterDelete, item, true).0.value > id
  {
  }

  lemma NoMovesOfUnknownItem(db: Db, k: int)
    requires ReferencesResolve(db) && k !in db.itens
    ensures MovesOf(db.movimentacoes, k) == []
  {
    MovesOfNone(db.movimentacoes, k);
  }

  /** Both branches of `salvar` keep every schema constraint. */
  lemma SavePreservesValid(db: Db, item: Item, up: bool)
    requires Valid(db)
    ensures Valid(Save(db, item, up).1)
  {
    var r := Save(db, item, up);
    if r.0.Ok? && item.id == None {
      var id := r.0.value;
      assert r.1.movimentacoes == db.movimentacoes;
      forall i | 0 <= i < |r.1.movimentacoes|
        ensures r.1.movimentacoes[i].itemId in r.1.itens
      {
        assert db.movimentacoes[i].itemId in db.itens;
      }
    }
  }

  /**
   Creating an item anchors `saldo_inicial = quantidade` with no movement
   yet, so the ledger relation survives an insert.
   */
  lemma InsertPreservesBalance(db: Db, item: Item, up: bool)
    requires Valid(db) && Balanced(db) && item.id == None
    ensures Balanced(Save(db, item, up).1)
  {
    var r := Save(db, item, up);
    if r.0.Ok? {
      var id := r.0.value;
      NoMovesOfUnknownItem(db, id);
      forall k | k in r.1.itens
        ensures r.1.itens[k].quantidade == r.1.itens[k].saldoInicial + Net(MovesOf(r.1.movimentacoes, k))
      {
        if k != id {
          assert k in db.itens;
        }
      }
    }
  }

  /**
   The UPDATE path writes `quantidade` directly: afterwards the ledger
   relation holds exactly when the new quantity equals the old one.
   */
  lemma UpdateBalancedIffSameQuantity(db: Db, item: Item)
    requires Valid(db) && Balanced(db)
    requires item.id.Some? && item.id.value in db.itens
    requires item.quantidade >= 0 && item.preco >= 0.0
    ensures Balanced(Save(db, item, true).1) <==> item.quantidade == db.itens[item.id.value].quantidade
  {
    var id := item.id.value;
    var after := Save(db, item, true).1;
    assert after.itens[id].quantidade == item.quantidade;
    assert after.itens[id].saldoInicial == db.itens[id].saldoInicial;
    if item.quantidade == db.itens[id].quantidade {
      forall k | k in after.itens
        ensures after.itens[k].quantidade == after.itens[k].saldoInicial + Net(MovesOf(after.movimentacoes, k))
      {
        if k != id {
          assert after.itens[k] == db.itens[k];
        }
      }
    }
  }

  /** A delete cascades, so the schema constraints and the ledger relation both survive it. */
  lemma RemovePreservesInvariants(db: Db, id: int, up: bool)
    requires Valid(db) && Balanced(db)
    ensures Valid(Remove(db, id, up).1) && Balanced(Remove(db, id, up).1)
  {
    var r := Remove(db, id, up);
    if r.0 == Removed {
      var ms := db.movimentacoes;
      var kept := MovesNotOf(ms, id);
      KeptRowsWellFormed(db, id);
      forall k | k in r.1.itens
        ensures r.1.itens[k].quantidade == r.1.itens[k].saldoInicial + Net(MovesOf(r.1.movimentacoes, k))
      {
        MovesOfAfterCascade(ms, id, k);
      }
    }
  }

  lemma {:induction false} CascadeKeepsOrder(ms: seq<Movimentacao>, id: int)
    requires forall i, j :: 0 <= i < j < |ms| ==> MovId(ms[i]) < MovId(ms[j])
    ensures forall i, j :: 0 <= i < j < |MovesNotOf(ms, id)| ==>
      MovId(MovesNotOf(ms, id)[i]) < MovId(MovesNotOf(ms, id)[j])
  {
    if |ms| > 0 {
      CascadeKeepsOrder(ms[1..], id);
      var rest := MovesNotOf(ms[1..], id);
      forall j | 0 <= j < |rest|
        ensures MovId(ms[0]) < MovId(rest[j])
      {
        assert rest[j] in ms[1..];
        var k :| 0 <= k < |ms[1..]| && ms[1..][k] == rest[j];
        assert ms[k + 1] == rest[j];
      }
    }
  }

  lemma KeptRowsWellFormed(db: Db, id: int)
    requires Valid(db) && id in db.itens
    ensures Valid(Remove(db, id, true).1)
  {
    var ms := db.movimentacoes;
    var after := Remove(db, id, true).1;
    CascadeKeepsOrder(ms, id);
    forall i | 0 <= i < |after.movimentacoes|
      ensures
        && after.movimentacoes[i].id.Some?
        && 1 <= MovId(after.movimentacoes[i]) < after.nextMovId
        && IsKind(after.movimentacoes[i].tipo)
        && after.movimentacoes[i].quantidade > 0
        && after.movimentacoes[i].itemId in after.itens
    {
      var m := after.movimentacoes[i];
      assert m in ms;
      var j :| 0 <= j < |ms| && ms[j] == m;
    }
  }
}

=== FILE: item_service.dfy ===
/**
 `ItemService`: `Item.validar`, a case-insensitive duplicate-name check,
 and the repository calls behind registration, update, removal and the
 name search.
 */
module ItemService {
  import opened Results
  import opened Records
  import opened Ledger
  import opened Schema
  import opened Text
  import opened Sorting
  import opened ItemRepository
  import MovementRepository

  datatype ItemError =
    | Invalid(fault: ItemFault)
    | Duplicate
    | UnknownItem
    | Storage(error: DbError)

  function ItemErrorMessage(e: ItemError): string
  {
    match e
    case Invalid(f) => ItemFaultMessage(f)
    case Duplicate => "Item já cadastrado com este nome"
    case UnknownItem => "Item não encontrado"
    case Storage(d) => SaveMessage(Err(d))
  }

  /** `any(item.nome.lower() == nome.lower() for item in itens)`. */
  function AnySameName(rows: seq<Item>, nome: string): (r: bool)
    ensures r <==> exists x :: x in rows && Lower(x.nome) == Lower(nome)
  {
    if |rows| == 0 then false
    else Lower(rows[0].nome) == Lower(nome) || AnySameName(rows[1..], nome)
  }

  /**
   `ItemService._item_existe`: search by the unstripped name, then compare
   the hits case-insensitively. A failed search yields no hits.
   */
  function ItemExists(db: Db, nome: string, up: bool): (r: bool)
    ensures r ==> up
  {
    AnySameName(FindByName(db, nome, up), nome)
  }

  /**
   The LIKE pre-filter never hides an equal name: the check holds exactly
   when some stored item has the same name up to ASCII case.
   */
  lemma ItemExistsIffSameName(db: Db, nome: string)
    ensures ItemExists(db, nome, true) <==> exists x :: IsRow(db, x) && Lower(x.nome) == Lower(nome)
  {
    var hits := FindByName(db, nome, true);
    assert forall x :: x in hits <==> x in multiset(hits);
    forall x | IsRow(db, x) && Lower(x.nome) == Lower(nome)
      ensures x in hits
    {
      SearchPatternFindsEqualName(nome, x.nome);
    }
  }

  /** No two stored items share a name up to ASCII case. */
  predicate NamesDistinct(db: Db)
  {
    forall a, b :: a in db.itens && b in db.itens && a != b ==> Lower(db.itens[a].nome) != Lower(db.itens[b].nome)
  }

  /**
   `ItemService.cadastrar`: `validar`, then the duplicate check, then
   `salvar` (which updates instead of inserting when `item.id` is set).
   */
  function Register(db: Db, item: Item, up: bool): (r: (Result<int, ItemError>, Db))
    ensures r.0.Err? ==> r.1 == db
    ensures ValidateItem(item).Some? <==> r.0.Err? && r.0.error.Invalid?
    ensures r.0.Err? && r.0.error.Invalid? ==> r.0.error.fault == ValidateItem(item).value
    ensures r.0 == Err(Duplicate) <==> ItemFieldsOk(item) && ItemExists(db, item.nome, up)
    ensures r.0.Err? && r.0.error.Storage? ==> r.0.error.error == Unavailable && !up
    ensures r.0.Err? ==> !r.0.error.UnknownItem?
    ensures ItemFieldsOk(item) && up && !ItemExists(db, item.nome, up) ==> r.0.Ok?
    ensures r.0.Ok? ==> ItemFieldsOk(item) && up && forall x :: IsRow(db, x) ==> Lower(x.nome) != Lower(item.nome)
    ensures r.0.Ok? && item.id == None ==>
      && r.0.value == db.nextItemId
      && r.1.itens.Keys == db.itens.Keys + {r.0.value}
      && r.1.itens[r.0.value].nome == item.nome
      && r.1.itens[r.0.value].saldoInicial == item.quantidade
      && SameEditableFields(r.1.itens[r.0.value], item)
      && r.1.movimentacoes == db.movimentacoes
    ensures r.0.Ok? && item.id == None && ItemsWellFormed(db) ==>
      forall k :: k in db.itens ==> r.1.itens[k] == db.itens[k]
    ensures r.0.Ok? ==> r.1 == Save(db, item, up).1
  {
    match ValidateItem(item)
    case Some(f) => (Err(Invalid(f)), db)
    case None =>
      if ItemExists(db, item.nome, up) then (Err(Duplicate), db)
      else
        ItemExistsIffSameName(db, item.nome);
        var (res, db') := Save(db, item, up);
        match res
        case Ok(id) => (Ok(id), db')
        case Err(e) => (Err(Storage(e)), db)
  }

  /** A new item only enters when its name is not taken, so registration keeps names distinct. */
  lemma RegisterKeepsNamesDistinct(db: Db, item: Item, up: bool)
    requires ItemsWellFormed(db) && NamesDistinct(db) && item.id == None
    ensures NamesDistinct(Register(db, item, up).1)
  {
    var r := Register(db, item, up);
    if r.0.Ok? {
      var id := r.0.value;
      forall a, b | a in r.1.itens && b in r.1.itens && a != b
        ensures Lower(r.1.itens[a].nome) != Lower(r.1.itens[b].nome)
      {
        if a == id {
          assert IsRow(db, db.itens[b]);
        } else if b == id {
          assert IsRow(db, db.itens[a]);
        }
      }
    }
  }

  /** Registration keeps the schema constraints and the ledger relation. */
  lemma RegisterPreservesInvariants(db: Db, item: Item, up: bool)
    requires Valid(db) && Balanced(db) && item.id == None
    ensures Valid(Register(db, item, up).1) && Balanced(Register(db, item, up).1)
  {
    SavePreservesValid(db, item, up);
    InsertPreservesBalance(db, item, up);
  }

  /**
   `ItemService.atualizar`: `validar`, then the item must be found by its
   id (an item without id never is), then `salvar` runs the UPDATE. The
   duplicate-name check is not repeated here.
   */
  function Update(db: Db, item: Item, up: bool): (r: (Result<int, ItemError>, Db))
    ensures r.0.Err? ==> r.1 == db
    ensures ValidateItem(item).Some? <==> r.0.Err? && r.0.error.Invalid?
    ensures r.0 == Err(UnknownItem) <==> ItemFieldsOk(item) && !(up && item.id.Some? && item.id.value in db.itens)
    ensures r.0.Err? ==> !r.0.error.Storage? && !r.0.error.Duplicate?
    ensures r.0.Ok? ==>
      && item.id.Some? && r.0.value == item.id.value && r.0.value in db.itens
      && r.1.itens.Keys == db.itens.Keys
      && SameEditableFields(r.1.itens[r.0.value], item)
      && r.1.itens[r.0.value].saldoInicial == db.itens[r.0.value].saldoInicial
      && r.1.movimentacoes == db.movimentacoes
      && (forall k :: k in db.itens && k != r.0.value ==> r.1.itens[k] == db.itens[k])
    ensures r.0.Ok? ==> r.1 == Save(db, item, up).1
  {
    match ValidateItem(item)
    case Some(f) => (Err(Invalid(f)), db)
    case None =>
      if item.id.None? || FindById(db, item.id.value, up).None? then (Err(UnknownItem), db)
      else
        var (res, db') := Save(db, item, up);
        match res
        case Ok(id) => (Ok(id), db')
        case Err(e) => (Err(Storage(e)), db)
  }

  /**
   An update that changes `quantidade` bypasses the ledger: afterwards the
   relation holds exactly when the quantity was left as it was.
   */
  lemma UpdateBalancedIffQuantityKept(db: Db, item: Item)
    requires Valid(db) && Balanced(db)
    requires Update(db, item, true).0.Ok?
    ensures Balanced(Update(db, item, true).1) <==> item.quantidade == db.itens[item.id.value].quantidade
  {
    UpdateBalancedIffSameQuantity(db, item);
  }

  /**
   `ItemService.remover`: the item must be found first, then `remover`
   deletes it together with its movements.
   */
  function RemoveItem(db: Db, id: int, up: bool): (r: (RemoveOutcome, Db))
    ensures r.0 == Removed <==> up && id in db.itens
    ensures r.0 == NotFound <==> !(up && id in db.itens)
    ensures r.0 != Removed ==> r.1 == db
    ensures r.0 == Removed ==>
      && id !in r.1.itens
      && r.1.itens.Keys == db.itens.Keys - {id}
      && (forall m :: m in r.1.movimentacoes <==> m in db.movimentacoes && m.itemId != id)
      && r.1.itens == db.itens - {id}
    ensures r.0 == Removed ==> r == Remove(db, id, up)
  {
    if FindById(db, id, up).None? then (NotFound, db)
    else Remove(db, id, up)
  }

  /** After a removal the item is neither found nor listed with any movement. */
  lemma RemovedItemLeavesNoTrace(db: Db, id: int)
    requires Valid(db) && Balanced(db) && id in db.itens
    ensures var after := RemoveItem(db, id, true).1;
      && FindById(after, id, true) == None
      && MovementRepository.ListByItem(after, id, None, None, true) == []
      && Valid(after) && Balanced(after)
  {
    var after := RemoveItem(db, id, true).1;
    RemovePreservesInvariants(db, id, true);
    forall i | 0 <= i < |after.movimentacoes|
      ensures after.movimentacoes[i].itemId != id
    {
      assert after.movimentacoes[i] in after.movimentacoes;
    }
    MovesOfNone(after.movimentacoes, id);
    var listed := MovementRepository.ListByItem(after, id, None, None, true);
    assert |listed| == |multiset(listed)| == 0;
  }

  /**
   `ItemService.buscar_por_nome`: a blank query lists everything; any
   other query is stripped and searched as `LIKE '%query%'`. Either way
   the result is ordered by name.
   */
  function SearchByName(db: Db, nome: string, up: bool): (r: seq<Item>)
    ensures !up ==> r == []
    ensures SortedBy(r, NameOf, false)
    ensures up && IsBlank(nome) ==> forall x :: x in r <==> IsRow(db, x)
    ensures up && IsBlank(nome) ==> multiset(r) == multiset(ItemRows(db))
    ensures up && !IsBlank(nome) ==> multiset(r) == multiset(NameMatches(ItemRows(db), Strip(nome)))
    ensures up && !IsBlank(nome) ==> forall x :: x in r <==> IsRow(db, x) && Like("%" + Strip(nome) + "%", x.nome)
  {
    StripEmptyIffBlank(nome);
    var q := Strip(nome);
    if q == "" then ListAll(db, up)
    else
      var r := FindByName(db, q, up);
      assert forall x :: x in r <==> x in multiset(r);
      r
  }

  /** Without wildcards in the stripped query, the search is a case-insensitive substring match. */
  lemma SearchIsSubstringMatch(db: Db, nome: string)
    requires !IsBlank(nome) && !HasWildcard(Strip(nome))
    ensures forall x :: x in SearchByName(db, nome, true) <==>
      IsRow(db, x) && ContainsIgnoringCase(x.nome, Strip(nome))
  {
    forall x: Item
      ensures Like("%" + Strip(nome) + "%", x.nome) <==> ContainsIgnoringCase(x.nome, Strip(nome))
    {
      SearchPatternIsContains(Strip(nome), x.nome);
    }
  }

  /** Whatever `validar` accepts passes the table's CHECKs, so `salvar` can only fail for storage reasons. */
  lemma ValidatedItemPassesChecks(item: Item)
    requires ValidateItem(item) == None
    ensures ItemRowCheck(item) == None
    ensures ItemRowCheck(InsertedRow(item, 1)) == None
  {
  }
}

=== FILE: ledger.dfy ===
/**
 Arithmetic over a sequence of movements: the signed fold every balance
 loop of the system performs (`entrada` adds, any other kind subtracts),
 and the facts that make the fold independent of listing order.
 */
module Ledger {
  import opened Records
  import opened Text

  /** The stock change one movement causes: `+quantidade` for `entrada`, `-quantidade` otherwise. */
  function Signed(m: Movimentacao): int
  {
    if m.tipo == Entrada then m.quantidade else -m.quantidade
  }

  /** The loop `saldo += q if entrada else saldo -= q`, started at zero. */
  function Net(ms: seq<Movimentacao>): int
  {
    if |ms| == 0 then 0 else Signed(ms[0]) + Net(ms[1..])
  }

  /** Total quantity of the `entrada` movements. */
  function Inflow(ms: seq<Movimentacao>): int
  {
    if |ms| == 0 then 0 else (if ms[0].tipo == Entrada then ms[0].quantidade else 0) + Inflow(ms[1..])
  }

  /** Total quantity of every other movement. */
  function Outflow(ms: seq<Movimentacao>): int
  {
    if |ms| == 0 then 0 else (if ms[0].tipo == Entrada then 0 else ms[0].quantidade) + Outflow(ms[1..])
  }

  lemma {:induction false} NetIsInflowMinusOutflow(ms: seq<Movimentacao>)
    ensures Net(ms) == Inflow(ms) - Outflow(ms)
  {
    if |ms| > 0 {
      NetIsInflowMinusOutflow(ms[1..]);
    }
  }

  lemma {:induction false} NetAppend(a: seq<Movimentacao>, b: seq<Movimentacao>)
    ensures Net(a + b) == Net(a) + Net(b)
  {
    if |a| == 0 {
      assert a + b == b;
    } else {
      assert (a + b)[1..] == a[1..] + b;
      NetAppend(a[1..], b);
    }
  }

  lemma NetRemoveAt(b: seq<Movimentacao>, j: int)
    requires 0 <= j < |b|
    ensures Net(b) == Signed(b[j]) + Net(b[..j] + b[j + 1..])
  {
    var pre, post := b[..j], b[j + 1..];
    assert b == pre + b[j..];
    assert b[j..][1..] == post;
    NetAppend(pre, b[j..]);
    NetAppend(pre, post);
  }

  lemma MultisetRemoveAt(b: seq<Movimentacao>, j: int)
    requires 0 <= j < |b|
    ensures multiset(b[..j] + b[j + 1..]) == multiset(b) - multiset{b[j]}
  {
    assert b == b[..j] + [b[j]] + b[j + 1..];
  }

  /** The fold does not depend on the order of the movements. */
  lemma {:induction false} NetPermutation(a: seq<Movimentacao>, b: seq<Movimentacao>)
    requires multiset(a) == multiset(b)
    ensures Net(a) == Net(b)
    decreases |a|
  {
    if |a| == 0 {
      assert |b| == |multiset(b)| == 0;
    } else {
      assert a[0] in multiset(b);
      var j :| 0 <= j < |b| && b[j] == a[0];
      var rest := b[..j] + b[j + 1..];
      MultisetRemoveAt(b, j);
      assert a == [a[0]] + a[1..];
      assert multiset(a[1..]) == multiset(a) - multiset{a[0]};
      NetPermutation(a[1..], rest);
      NetRemoveAt(b, j);
    }
  }

  /** The movements of one item, in ledger order. */
  function MovesOf(ms: seq<Movimentacao>, itemId: int): (r: seq<Movimentacao>)
    ensures forall m :: m in r <==> m in ms && m.itemId == itemId
    ensures multiset(r) <= multiset(ms)
  {
    if |ms| == 0 then []
    else
      assert ms == [ms[0]] + ms[1..];
      (if ms[0].itemId == itemId then [ms[0]] else []) + MovesOf(ms[1..], itemId)
  }

  lemma {:induction false} MovesOfNone(ms: seq<Movimentacao>, itemId: int)
    requires forall i :: 0 <= i < |ms| ==> ms[i].itemId != itemId
    ensures MovesOf(ms, itemId) == []
  {
    if |ms| > 0 {
      MovesOfNone(ms[1..], itemId);
    }
  }

  lemma {:induction false} MovesOfAppend(a: seq<Movimentacao>, b: seq<Movimentacao>, itemId: int)
    ensures MovesOf(a + b, itemId) == MovesOf(a, itemId) + MovesOf(b, itemId)
  {
    if |a| == 0 {
      assert a + b == b;
    } else {
      assert (a + b)[1..] == a[1..] + b;
      MovesOfAppend(a[1..], b, itemId);
    }
  }

  /** One item's movements keep every copy of that item's rows and none of any other's. */
  lemma {:induction false} MovesOfCount(ms: seq<Movimentacao>, itemId: int)
    ensures forall m :: multiset(MovesOf(ms, itemId))[m] == (if m.itemId == itemId then multiset(ms)[m] else 0)
  {
    if |ms| > 0 {
      MovesOfCount(ms[1..], itemId);
      assert ms == [ms[0]] + ms[1..];
    }
  }

  /** The movements not of one item, in ledger order: what a cascade delete leaves. */
  function MovesNotOf(ms: seq<Movimentacao>, itemId: int): (r: seq<Movimentacao>)
    ensures forall m :: m in r <==> m in ms && m.itemId != itemId
    ensures multiset(r) <= multiset(ms)
  {
    if |ms| == 0 then []
    else
      assert ms == [ms[0]] + ms[1..];
      (if ms[0].itemId != itemId then [ms[0]] else []) + MovesNotOf(ms[1..], itemId)
  }

  /** Removing one item's movements leaves every other item's movements as they were. */
  lemma {:induction false} MovesOfAfterCascade(ms: seq<Movimentacao>, gone: int, itemId: int)
    requires itemId != gone
    ensures MovesOf(MovesNotOf(ms, gone), itemId) == MovesOf(ms, itemId)
  {
    if |ms| > 0 {
      MovesOfAfterCascade(ms[1..], gone, itemId);
      var head := if ms[0].itemId != gone then [ms[0]] else [];
      MovesOfAppend(head, MovesNotOf(ms[1..], gone), itemId);
    }
  }

  /** The movements dated strictly before `bound`, in listing order. */
  function Before(ms: seq<Movimentacao>, bound: string): (r: seq<Movimentacao>)
    ensures forall m :: m in r <==> m in ms && !StrLe(bound, m.data)
  {
    if |ms| == 0 then []
    else (if !StrLe(bound, ms[0].data) then [ms[0]] else []) + Before(ms[1..], bound)
  }

  /** The movements dated at or after `bound`, in listing order. */
  function From(ms: seq<Movimentacao>, bound: string): (r: seq<Movimentacao>)
    ensures forall m :: m in r <==> m in ms && StrLe(bound, m.data)
  {
    if |ms| == 0 then []
    else (if StrLe(bound, ms[0].data) then [ms[0]] else []) + From(ms[1..], bound)
  }

  /** `Before` keeps every copy of an earlier movement and nothing else. */
  lemma {:induction false} BeforeCount(ms: seq<Movimentacao>, bound: string)
    ensures forall m ::
      multiset(Before(ms, bound))[m] == (if !StrLe(bound, m.data) then multiset(ms)[m] else 0)
  {
    if |ms| > 0 {
      BeforeCount(ms[1..], bound);
      assert ms == [ms[0]] + ms[1..];
    }
  }

  /** Reordering the movements does not change what `Before` adds up to. */
  lemma BeforePermutation(a: seq<Movimentacao>, b: seq<Movimentacao>, bound: string)
    requires multiset(a) == multiset(b)
    ensures Net(Before(a, bound)) == Net(Before(b, bound))
  {
    BeforeCount(a, bound);
    BeforeCount(b, bound);
    assert multiset(Before(a, bound)) == multiset(Before(b, bound));
    NetPermutation(Before(a, bound), Before(b, bound));
  }

  /** Splitting at a date loses nothing: the part before and the part from it add up. */
  lemma {:induction false} NetSplitAtDate(ms: seq<Movimentacao>, bound: string)
    ensures Net(Before(ms, bound)) + Net(From(ms, bound)) == Net(ms)
  {
    if |ms| > 0 {
      NetSplitAtDate(ms[1..], bound);
      var b := if !StrLe(bound, ms[0].data) then [ms[0]] else [];
      var f := if StrLe(bound, ms[0].data) then [ms[0]] else [];
      NetAppend(b, Before(ms[1..], bound));
      NetAppend(f, From(ms[1..], bound));
    }
  }
}

=== FILE: legacy_movement.dfy ===
/**
 The older movement DAO (`models/movimentacao.py`, `MovimentacaoDAO`). It
 opens its connection through `database/db.py`, which returns None when
 connecting fails and never turns `PRAGMA foreign_keys` on, so the
 foreign key of `movimentacoes` is not enforced on its writes. The tables
 are the ones `src/core/database.py` declares, CHECKs included.
 */
module LegacyMovementDao {
  import opened Results
  import opened Records
  import opened Ledger
  import opened Schema
  import opened Text
  import opened Sorting
  import opened Dates
  import MovementRepository
  import ItemRepository

  datatype LegacyError = NoConnection | Sql(error: DbError)

  function LegacyRecordMessage(r: Result<int, LegacyError>): string
  {
    match r
    case Ok(_) => "Movimentação registrada com sucesso!"
    case Err(NoConnection) => "Erro ao conectar ao banco"
    case Err(Sql(e)) => "Erro ao registrar movimentação: " + DbErrorText(e)
  }

  /**
   `MovimentacaoDAO.registrar`: the INSERT first (kind and quantity
   CHECKs, no foreign key), then the stock UPDATE, which touches no row
   when the item does not exist and otherwise re-checks only
   `quantidade >= 0`. A refused statement rolls both back.
   */
  function LegacyRecord(db: Db, mov: Movimentacao, connected: bool): (r: (Result<int, LegacyError>, Db))
    ensures r.0.Err? ==> r.1 == db
    ensures !connected ==> r.0 == Err(NoConnection)
    ensures r.0.Ok? <==>
      && connected && IsKind(mov.tipo) && mov.quantidade > 0
      && (mov.itemId in db.itens ==>
            db.itens[mov.itemId].quantidade + Signed(mov) >= 0)
    ensures connected && !IsKind(mov.tipo) ==> r.0 == Err(Sql(KindCheck))
    ensures connected && IsKind(mov.tipo) && mov.quantidade <= 0 ==> r.0 == Err(Sql(QuantityCheck))
    ensures (connected && IsKind(mov.tipo) && mov.quantidade > 0 && mov.itemId in db.itens
             && db.itens[mov.itemId].quantidade + Signed(mov) < 0) ==> r.0 == Err(Sql(StockCheck))
    ensures r.0.Ok? ==>
      && r.0.value == db.nextMovId
      && r.1.movimentacoes == db.movimentacoes + [mov.(id := Some(db.nextMovId))]
      && r.1.itens.Keys == db.itens.Keys
      && (forall k :: k in db.itens && k != mov.itemId ==> r.1.itens[k] == db.itens[k])
      && (mov.itemId in db.itens ==>
            r.1.itens[mov.itemId].quantidade == db.itens[mov.itemId].quantidade + Signed(mov))
      && r.1.nextItemId == db.nextItemId && r.1.nextMovId == db.nextMovId + 1
  {
    if !connected then (Err(NoConnection), db)
    else match MovementRowCheck(mov)
      case Some(e) => (Err(Sql(e)), db)
      case None =>
        var k := mov.itemId;
        var id := db.nextMovId;
        var inserted := db.(movimentacoes := db.movimentacoes + [mov.(id := Some(id))], nextMovId := id + 1);
        if k !in db.itens then (Ok(id), inserted)
        else if MovementRepository.Moved(db.itens[k], mov).quantidade < 0 then (Err(Sql(StockCheck)), db)
        else (Ok(id), inserted.(itens := db.itens[k := MovementRepository.Moved(db.itens[k], mov)]))
  }

  /** On an existing item the two `registrar`s commit the same change or refuse alike. */
  lemma LegacyAgreesOnKnownItem(db: Db, mov: Movimentacao)
    requires mov.itemId in db.itens
    ensures LegacyRecord(db, mov, true).0.Ok? <==> MovementRepository.Record(db, mov, true).0.Ok?
    ensures LegacyRecord(db, mov, true).1 == MovementRepository.Record(db, mov, true).1
  {
  }

  /**
   On an unknown item the legacy `registrar` commits a movement that
   refers to nothing, which the current repository refuses.
   */
  lemma LegacyCommitsOrphan(db: Db, mov: Movimentacao)
    requires mov.itemId !in db.itens && IsKind(mov.tipo) && mov.quantidade > 0
    ensures LegacyRecord(db, mov, true).0.Ok?
    ensures !ReferencesResolve(LegacyRecord(db, mov, true).1)
    ensures MovementRepository.Record(db, mov, true).0 == Err(ForeignKey)
  {
    var after := LegacyRecord(db, mov, true).1;
    assert after.movimentacoes[|db.movimentacoes|].itemId == mov.itemId;
  }

  /** After recording an orphan under the next item id, that id has exactly one movement and no row. */
  lemma OrphanWaitsForItem(db: Db, mov: Movimentacao)
    requires Valid(db)
    requires mov.itemId == db.nextItemId && IsKind(mov.tipo) && mov.quantidade > 0
    ensures var db1 := LegacyRecord(db, mov, true).1;
      && ItemsWellFormed(db1) && db1.nextItemId == mov.itemId && mov.itemId !in db1.itens
      && MovesOf(db1.movimentacoes, mov.itemId) == [mov.(id := Some(db.nextMovId))]
  {
    var k := mov.itemId;
    var row := mov.(id := Some(db.nextMovId));
    assert k !in db.itens;
    ItemRepository.NoMovesOfUnknownItem(db, k);
    MovesOfAppend(db.movimentacoes, [row], k);
  }

  /**
   An orphan recorded under the id the next item will receive is
   inherited by that item: its stock starts at `quantidade` while its
   ledger already holds a movement, so the ledger relation breaks.
   */
  lemma OrphanAdoptedByNextItem(db: Db, mov: Movimentacao, item: Item)
    requires Valid(db) && Balanced(db)
    requires mov.itemId == db.nextItemId && IsKind(mov.tipo) && mov.quantidade > 0
    requires item.id == None && item.quantidade >= 0 && item.preco >= 0.0
    ensures var db1 := LegacyRecord(db, mov, true).1;
      && ItemRepository.Save(db1, item, true).0 == Ok(mov.itemId)
      && !Balanced(ItemRepository.Save(db1, item, true).1)
  {
    var k := mov.itemId;
    var row := mov.(id := Some(db.nextMovId));
    var db1 := LegacyRecord(db, mov, true).1;
    OrphanWaitsForItem(db, mov);
    var db2 := ItemRepository.Save(db1, item, true).1;
    assert db2.movimentacoes == db1.movimentacoes;
    assert db2.itens[k].quantidade == item.quantidade == db2.itens[k].saldoInicial;
    assert Net([row]) != 0;
  }

  /** The user's `DD/MM/YYYY` start widened to the first second of that day. */
  function StartOfDay(d: string): string
    requires IsBrDate(d)
  {
    BrToIso(d) + " 00:00:00"
  }

  /** The user's `DD/MM/YYYY` end widened to the last second of that day. */
  function EndOfDay(d: string): string
    requires IsBrDate(d)
  {
    BrToIso(d) + " 23:59:59"
  }

  /** A given date `strptime(..., "%d/%m/%Y")` cannot parse; the ValueError reaches the caller. */
  predicate Unparsable(d: Option<string>)
  {
    MovementRepository.Given(d) && !IsBrDate(d.value)
  }

  function DayBound(d: Option<string>, endOfDay: bool): (r: Option<string>)
    requires !Unparsable(d)
    ensures MovementRepository.Given(d) <==> MovementRepository.Given(r)
  {
    if MovementRepository.Given(d) then Some(if endOfDay then EndOfDay(d.value) else StartOfDay(d.value)) else None
  }

  /**
   `MovimentacaoDAO.listar_por_item_com_filtros`: the item's movements
   between the first second of the start day and the last second of the
   end day, `ORDER BY data DESC`. A date `strptime` refuses is an error
   carrying that date, raised before any connection is tried; a failed
   connection gives `[]`.
   */
  function ListByItemWithFilters(db: Db, itemId: int, dataInicio: Option<string>, dataFim: Option<string>,
                                 connected: bool): (r: Result<seq<Movimentacao>, string>)
    ensures r.Err? <==> Unparsable(dataInicio) || Unparsable(dataFim)
    ensures r.Err? ==> r.error == (if Unparsable(dataInicio) then dataInicio.value else dataFim.value)
    ensures r.Ok? && !connected ==> r.value == []
    ensures r.Ok? && connected ==>
      && SortedBy(r.value, MovementRepository.DataOf, true)
      && multiset(r.value) == multiset(MovementRepository.Window(
           MovesOf(db.movimentacoes, itemId), DayBound(dataInicio, false), DayBound(dataFim, true)))
  {
    if Unparsable(dataInicio) then Err(dataInicio.value)
    else if Unparsable(dataFim) then Err(dataFim.value)
    else if !connected then Ok([])
    else
      var w := MovementRepository.Window(MovesOf(db.movimentacoes, itemId), DayBound(dataInicio, false), DayBound(dataFim, true));
      Ok(SortBy(w, MovementRepository.DataOf, true))
  }

  /** The movement's day lies from the start day through the end day, where given. */
  predicate WithinDays(m: Movimentacao, dataInicio: Option<string>, dataFim: Option<string>)
    requires |m.data| >= 10 && !Unparsable(dataInicio) && !Unparsable(dataFim)
  {
    && (MovementRepository.Given(dataInicio) ==> StrLe(BrToIso(dataInicio.value), Day(m.data)))
    && (MovementRepository.Given(dataFim) ==> StrLe(Day(m.data), BrToIso(dataFim.value)))
  }

  /** For one well-formed movement, the widened bounds admit exactly its whole days. */
  lemma WholeDayBounds(m: Movimentacao, dataInicio: Option<string>, dataFim: Option<string>)
    requires IsTimestamp(m.data) && !Unparsable(dataInicio) && !Unparsable(dataFim)
    ensures MovementRepository.InWindow(m, DayBound(dataInicio, false), DayBound(dataFim, true)) <==>
      WithinDays(m, dataInicio, dataFim)
  {
    if MovementRepository.Given(dataInicio) {
      StartOfDayBound(m.data, BrToIso(dataInicio.value));
    }
    if MovementRepository.Given(dataFim) {
      EndOfDayBound(m.data, BrToIso(dataFim.value));
    }
  }

  /** The filtered listing holds exactly the item's movements inside the widened window. */
  lemma FilteredMembers(db: Db, itemId: int, dataInicio: Option<string>, dataFim: Option<string>)
    requires !Unparsable(dataInicio) && !Unparsable(dataFim)
    ensures var r := ListByItemWithFilters(db, itemId, dataInicio, dataFim, true);
      r.Ok? && forall m :: m in r.value <==>
        m in db.movimentacoes && m.itemId == itemId &&
        MovementRepository.InWindow(m, DayBound(dataInicio, false), DayBound(dataFim, true))
  {
    var w := MovementRepository.Window(MovesOf(db.movimentacoes, itemId), DayBound(dataInicio, false), DayBound(dataFim, true));
    var r := ListByItemWithFilters(db, itemId, dataInicio, dataFim, true).value;
    forall m
      ensures m in r <==> m in w
    {
      assert m in r <==> m in multiset(r);
      assert m in w <==> m in multiset(w);
    }
  }

  /** Unlike the current service, the legacy filter is inclusive of both whole days. */
  lemma FiltersCoverWholeDays(db: Db, itemId: int, dataInicio: Option<string>, dataFim: Option<string>)
    requires Timestamped(db) && !Unparsable(dataInicio) && !Unparsable(dataFim)
    ensures var r := ListByItemWithFilters(db, itemId, dataInicio, dataFim, true);
      r.Ok? && forall m :: m in r.value <==>
        m in db.movimentacoes && m.itemId == itemId && IsTimestamp(m.data) && WithinDays(m, dataInicio, dataFim)
  {
    FilteredMembers(db, itemId, dataInicio, dataFim);
    forall m | m in db.movimentacoes
      ensures IsTimestamp(m.data)
      ensures MovementRepository.InWindow(m, DayBound(dataInicio, false), DayBound(dataFim, true)) <==>
        WithinDays(m, dataInicio, dataFim)
    {
      var i :| 0 <= i < |db.movimentacoes| && db.movimentacoes[i] == m;
      WholeDayBounds(m, dataInicio, dataFim);
    }
  }

  /**
   `MovimentacaoDAO.primeiro_saldo`: despite its name it reads the
   current `quantidade`; a missing row or a failed connection gives 0.
   */
  function FirstBalance(db: Db, itemId: int, connected: bool): (r: int)
    ensures connected && itemId in db.itens ==> r == db.itens[itemId].quantidade
    ensures !(connected && itemId in db.itens) ==> r == 0
  {
    if connected && itemId in db.itens then db.itens[itemId].quantidade else 0
  }

  /**
   Under the ledger relation the value is the balance after every
   movement, and it equals `saldo_inicial` only when the movements net to zero.
   */
  lemma FirstBalanceIsCurrentBalance(db: Db, itemId: int)
    requires Balanced(db) && itemId in db.itens
    ensures FirstBalance(db, itemId, true) == db.itens[itemId].saldoInicial + Net(MovesOf(db.movimentacoes, itemId))
    ensures FirstBalance(db, itemId, true) == db.itens[itemId].saldoInicial <==> Net(MovesOf(db.movimentacoes, itemId)) == 0
  {
  }

  /** `MovimentacaoDAO.listar_por_item`: every movement of the item, `ORDER BY data DESC`. */
  function LegacyListByItem(db: Db, itemId: int, connected: bool): (r: seq<Movimentacao>)
    ensures !connected ==> r == []
    ensures connected ==> SortedBy(r, MovementRepository.DataOf, true)
    ensures connected ==> multiset(r) == multiset(MovesOf(db.movimentacoes, itemId))
  {
    if !connected then [] else SortBy(MovesOf(db.movimentacoes, itemId), MovementRepository.DataOf, true)
  }

  /** Without dates the filtered listing returns the same rows as the plain one. */
  lemma UnfilteredListingsAgree(db: Db, itemId: int)
    ensures ListByItemWithFilters(db, itemId, None, None, true).Ok?
    ensures multiset(ListByItemWithFilters(db, itemId, None, None, true).value) ==
      multiset(LegacyListByItem(db, itemId, true))
  {
    MovementRepository.WindowKeepsAll(MovesOf(db.movimentacoes, itemId), None, None);
  }

  /** A movement joined with its item's name (`m.*, i.nome AS item_nome`). */
  datatype NamedMovement = NamedMovement(mov: Movimentacao, itemNome: string)

  function NamedDataOf(n: NamedMovement): string
  {
    n.mov.data
  }

  /** The inner join in ledger order: movements whose item no longer exists drop out. */
  function Joined(ms: seq<Movimentacao>, itens: map<int, Item>): (r: seq<NamedMovement>)
    ensures forall n :: n in r <==> n.mov in ms && n.mov.itemId in itens && n.itemNome == itens[n.mov.itemId].nome
    ensures |r| <= |ms|
  {
    if |ms| == 0 then []
    else
      var head := if ms[0].itemId in itens then [NamedMovement(ms[0], itens[ms[0].itemId].nome)] else [];
      head + Joined(ms[1..], itens)
  }

  lemma {:induction false} JoinedKeepsAll(ms: seq<Movimentacao>, itens: map<int, Item>)
    requires forall i :: 0 <= i < |ms| ==> ms[i].itemId in itens
    ensures |Joined(ms, itens)| == |ms|
  {
    if |ms| > 0 {
      JoinedKeepsAll(ms[1..], itens);
    }
  }

  /** `MovimentacaoDAO.listar_todas`: the join, `ORDER BY m.data DESC`. */
  function LegacyListAll(db: Db, connected: bool): (r: seq<NamedMovement>)
    ensures !connected ==> r == []
    ensures connected ==> SortedBy(r, NamedDataOf, true)
    ensures connected ==> multiset(r) == multiset(Joined(db.movimentacoes, db.itens))
    ensures connected ==> forall n :: n in r <==>
      n.mov in db.movimentacoes && n.mov.itemId in db.itens && n.itemNome == db.itens[n.mov.itemId].nome
  {
    if !connected then []
    else
      var r := SortBy(Joined(db.movimentacoes, db.itens), NamedDataOf, true);
      assert forall n :: n in r <==> n in multiset(r);
      r
  }

  /** While every movement refers to an item the join loses no row; an orphan never appears. */
  lemma ListAllDropsOnlyOrphans(db: Db)
    ensures ReferencesResolve(db) ==> |LegacyListAll(db, true)| == |db.movimentacoes|
    ensures forall n :: n in LegacyListAll(db, true) ==> n.mov.itemId in db.itens
  {
    var r := LegacyListAll(db, true);
    var j := Joined(db.movimentacoes, db.itens);
    assert |r| == |multiset(r)| == |multiset(j)| == |j|;
    if ReferencesResolve(db) {
      JoinedKeepsAll(db.movimentacoes, db.itens);
    }
  }
}

=== FILE: movement_repository.dfy ===
/**
 `MovimentacaoRepository`: recording a movement (stock UPDATE and row
 INSERT in one transaction) and the two date-window listings.
 */
module MovementRepository {
  import opened Results
  import opened Records
  import opened Ledger
  import opened Schema
  import opened Text
  import opened Sorting
  import Dates

  /** The item row after the stock UPDATE of `registrar`. */
  function Moved(it: Item, m: Movimentacao): Item
  {
    it.(quantidade := it.quantidade + Signed(m))
  }

  /**
   `MovimentacaoRepository.registrar`: first `UPDATE itens SET quantidade =
   quantidade ± q` (plus for `entrada`, minus for anything else), then the
   INSERT. SQLite re-evaluates on an UPDATE only the CHECKs that mention an
   assigned column, so the UPDATE checks `quantidade >= 0` alone; the
   INSERT checks the kind, then the quantity, then the foreign key. Any
   failure rolls both back. The result carries the new movement id
   (`cursor.lastrowid`).
   */
  function Record(db: Db, mov: Movimentacao, up: bool): (r: (Result<int, DbError>, Db))
    ensures r.0.Err? ==> r.1 == db
    ensures !up ==> r.0 == Err(Unavailable)
    ensures r.0.Ok? <==>
      && up && mov.itemId in db.itens && IsKind(mov.tipo) && mov.quantidade > 0
      && db.itens[mov.itemId].quantidade + Signed(mov) >= 0
    ensures up && mov.itemId in db.itens && db.itens[mov.itemId].quantidade + Signed(mov) < 0 ==>
      r.0 == Err(StockCheck)
    ensures up && mov.itemId in db.itens && db.itens[mov.itemId].quantidade + Signed(mov) >= 0 && r.0.Err? ==>
      r.0.error == (if !IsKind(mov.tipo) then KindCheck else QuantityCheck)
    ensures up && mov.itemId !in db.itens ==>
      r.0 == Err(if !IsKind(mov.tipo) then KindCheck else if mov.quantidade <= 0 then QuantityCheck else ForeignKey)
    ensures r.0.Ok? ==>
      && r.0.value == db.nextMovId
      && r.1.movimentacoes == db.movimentacoes + [mov.(id := Some(db.nextMovId))]
      && r.1.itens.Keys == db.itens.Keys
      && r.1.itens[mov.itemId].quantidade == db.itens[mov.itemId].quantidade + Signed(mov)
      && r.1.itens[mov.itemId] == db.itens[mov.itemId].(quantidade := r.1.itens[mov.itemId].quantidade)
      && (forall k :: k in db.itens && k != mov.itemId ==> r.1.itens[k] == db.itens[k])
      && r.1.nextMovId == db.nextMovId + 1 && r.1.nextItemId == db.nextItemId
  {
    if !up then (Err(Unavailable), db)
    else
      var k := mov.itemId;
      if k in db.itens && Moved(db.itens[k], mov).quantidade < 0 then (Err(StockCheck), db)
      else match MovementRowCheck(mov)
        case Some(e) => (Err(e), db)
        case None =>
          if k !in db.itens then (Err(ForeignKey), db)
          else
            var id := db.nextMovId;
            (Ok(id), db.(itens := db.itens[k := Moved(db.itens[k], mov)],
                         movimentacoes := db.movimentacoes + [mov.(id := Some(id))],
                         nextMovId := id + 1))
  }

  function RecordMessage(r: Result<int, DbError>): string
  {
    match r
    case Ok(_) => "Movimentação registrada com sucesso"
    case Err(e) => "Erro ao registrar movimentação: " + DbErrorText(e)
  }

  lemma RecordPreservesValid(db: Db, mov: Movimentacao, up: bool)
    requires Valid(db)
    ensures Valid(Record(db, mov, up).1)
  {
    var r := Record(db, mov, up);
    if r.0.Ok? {
      var ms := db.movimentacoes;
      var ms' := r.1.movimentacoes;
      forall i | 0 <= i < |ms'|
        ensures ms'[i].itemId in r.1.itens
      {
        if i < |ms| {
          assert ms'[i] == ms[i];
        }
      }
    }
  }

  /** Every movement `registrar` commits moves the stock by exactly its signed quantity. */
  lemma RecordPreservesBalance(db: Db, mov: Movimentacao, up: bool)
    requires Balanced(db)
    ensures Balanced(Record(db, mov, up).1)
  {
    var r := Record(db, mov, up);
    if r.0.Ok? {
      var added := mov.(id := Some(r.0.value));
      forall k | k in r.1.itens
        ensures r.1.itens[k].quantidade == r.1.itens[k].saldoInicial + Net(MovesOf(r.1.movimentacoes, k))
      {
        MovesOfAppend(db.movimentacoes, [added], k);
        assert MovesOf([added], k) == (if added.itemId == k then [added] else []);
        NetAppend(MovesOf(db.movimentacoes, k), MovesOf([added], k));
      }
    }
  }

  lemma RecordPreservesTimestamped(db: Db, mov: Movimentacao, up: bool)
    requires Timestamped(db) && Dates.IsTimestamp(mov.data)
    ensures Timestamped(Record(db, mov, up).1)
  {
  }

  /** Python truthiness of an optional date argument: present and non-empty. */
  predicate Given(o: Option<string>)
  {
    o.Some? && o.value != ""
  }

  /** `data >= start` when a start is given, `data <= end` when an end is given. */
  predicate InWindow(m: Movimentacao, start: Option<string>, end: Option<string>)
  {
    && (Given(start) ==> StrLe(start.value, m.data))
    && (Given(end) ==> StrLe(m.data, end.value))
  }

  /** The movements inside a date window, in ledger order. */
  function Window(ms: seq<Movimentacao>, start: Option<string>, end: Option<string>): (r: seq<Movimentacao>)
    ensures forall m :: m in r <==> m in ms && InWindow(m, start, end)
  {
    if |ms| == 0 then []
    else (if InWindow(ms[0], start, end) then [ms[0]] else []) + Window(ms[1..], start, end)
  }

  /** The window keeps every copy of a movement inside it and none outside. */
  lemma {:induction false} WindowCount(ms: seq<Movimentacao>, start: Option<string>, end: Option<string>)
    ensures forall m ::
      multiset(Window(ms, start, end))[m] == (if InWindow(m, start, end) then multiset(ms)[m] else 0)
  {
    if |ms| > 0 {
      WindowCount(ms[1..], start, end);
      assert ms == [ms[0]] + ms[1..];
    }
  }

  lemma {:induction false} WindowKeepsAll(ms: seq<Movimentacao>, start: Option<string>, end: Option<string>)
    requires forall i :: 0 <= i < |ms| ==> InWindow(ms[i], start, end)
    ensures Window(ms, start, end) == ms
  {
    if |ms| > 0 {
      WindowKeepsAll(ms[1..], start, end);
      assert ms == [ms[0]] + ms[1..];
    }
  }

  function DataOf(m: Movimentacao): string
  {
    m.data
  }

  /** `MovimentacaoRepository.listar_todas`: the window over every movement, `ORDER BY data DESC`; `[]` on error. */
  function ListAll(db: Db, start: Option<string>, end: Option<string>, up: bool): (r: seq<Movimentacao>)
    ensures !up ==> r == []
    ensures up ==> SortedBy(r, DataOf, true)
    ensures up ==> multiset(r) == multiset(Window(db.movimentacoes, start, end))
    ensures up ==> forall m :: m in r <==> m in db.movimentacoes && InWindow(m, start, end)
  {
    if !up then []
    else
      var r := SortBy(Window(db.movimentacoes, start, end), DataOf, true);
      assert forall m :: m in r <==> m in multiset(r);
      r
  }

  /** `MovimentacaoRepository.listar_por_item`: the same, restricted to one item. */
  function ListByItem(db: Db, itemId: int, start: Option<string>, end: Option<string>, up: bool): (r: seq<Movimentacao>)
    ensures !up ==> r == []
    ensures up ==> SortedBy(r, DataOf, true)
    ensures up ==> multiset(r) == multiset(Window(MovesOf(db.movimentacoes, itemId), start, end))
    ensures up ==> forall m :: m in r <==> m in db.movimentacoes && m.itemId == itemId && InWindow(m, start, end)
  {
    if !up then []
    else
      var r := SortBy(Window(MovesOf(db.movimentacoes, itemId), start, end), DataOf, true);
      assert forall m :: m in r <==> m in multiset(r);
      r
  }

  /** Without bounds the per-item listing replays the whole ledger: it reconciles with the stored stock. */
  lemma UnboundedListingReconciles(db: Db, itemId: int)
    requires Balanced(db) && itemId in db.itens
    ensures db.itens[itemId].saldoInicial + Net(ListByItem(db, itemId, None, None, true)) == db.itens[itemId].quantidade
  {
    var own := MovesOf(db.movimentacoes, itemId);
    WindowKeepsAll(own, None, None);
    NetPermutation(ListByItem(db, itemId, None, None, true), own);
  }

  /** A committed movement is listed for its item, under its new id, exactly once more than before. */
  lemma RecordThenListed(db: Db, mov: Movimentacao)
    requires Record(db, mov, true).0.Ok?
    ensures var (r, after) := Record(db, mov, true);
      var row := mov.(id := Some(r.value));
      && row in ListByItem(after, mov.itemId, None, None, true)
      && multiset(ListByItem(after, mov.itemId, None, None, true))[row] ==
         multiset(ListByItem(db, mov.itemId, None, None, true))[row] + 1
  {
    var (r, after) := Record(db, mov, true);
    var row := mov.(id := Some(r.value));
    MovesOfAppend(db.movimentacoes, [row], mov.itemId);
    assert MovesOf([row], mov.itemId) == [row];
    WindowKeepsAll(MovesOf(db.movimentacoes, mov.itemId), None, None);
    WindowKeepsAll(MovesOf(after.movimentacoes, mov.itemId), None, None);
    assert row in multiset(ListByItem(after, mov.itemId, None, None, true));
  }

  /** A start date `D` admits whole days: every movement of day `D` or later. */
  lemma StartBoundAdmitsWholeDays(db: Db, itemId: int, d: string)
    requires Timestamped(db) && |d| == 10
    ensures forall m :: m in ListByItem(db, itemId, Some(d), None, true) <==>
      m in db.movimentacoes && m.itemId == itemId && StrLe(d, Dates.Day(m.data))
  {
    forall m | m in db.movimentacoes
      ensures StrLe(d, m.data) <==> StrLe(d, Dates.Day(m.data))
    {
      var i :| 0 <= i < |db.movimentacoes| && db.movimentacoes[i] == m;
      Dates.LowerDayBound(m.data, d);
    }
  }

  /**
   An end date `D` compares `data <= 'D'`, and every timestamp of day `D`
   sorts after `'D'`: the end day itself is never listed.
   */
  lemma EndBoundExcludesEndDay(db: Db, itemId: int, d: string)
    requires Timestamped(db) && |d| == 10
    ensures forall m :: m in ListByItem(db, itemId, None, Some(d), true) <==>
      m in db.movimentacoes && m.itemId == itemId && StrLt(Dates.Day(m.data), d)
  {
    forall m | m in db.movimentacoes
      ensures StrLe(m.data, d) <==> StrLt(Dates.Day(m.data), d)
    {
      var i :| 0 <= i < |db.movimentacoes| && db.movimentacoes[i] == m;
      Dates.UpperDayBoundExcludesDay(m.data, d);
    }
  }
}

=== FILE: movement_service.dfy ===
/**
 `MovimentacaoService`: the checks made before a movement reaches the
 repository, and the per-item statement (history with opening and
 closing balance) built from two listings. The wall clock of
 `datetime.now()` is the parameter `now`.
 */
module MovementService {
  import opened Results
  import opened Records
  import opened Ledger
  import opened Schema
  import opened Text
  import opened Sorting
  import opened MovementRepository
  import ItemRepository
  import Dates

  datatype MovementError =
    | InvalidKind
    | NotPositive
    | BlankResponsible
    | ItemNotFound
    | InsufficientStock(available: int)
    | Storage(error: DbError)

  function RegisterMessage(r: Result<int, MovementError>): string
  {
    match r
    case Ok(_) => "Movimentação registrada com sucesso"
    case Err(InvalidKind) => "Tipo inválido (use 'entrada' ou 'saída')"
    case Err(NotPositive) => "Quantidade deve ser positiva"
    case Err(BlankResponsible) => "Responsável é obrigatório"
    case Err(ItemNotFound) => "Item não encontrado"
    case Err(InsufficientStock(n)) => "Estoque insuficiente (disponível: " + Dates.IntToString(n) + ")"
    case Err(Storage(e)) => RecordMessage(Err(e))
  }

  /** The row the service hands to the repository, stamped with `now`. */
  function NewMovement(itemId: int, tipo: string, quantidade: int, responsavel: string,
                       motivo: Option<string>, now: string): Movimentacao
  {
    Movimentacao(None, itemId, tipo, quantidade, now, responsavel, motivo)
  }

  /** The service's own checks all pass. */
  predicate Admissible(tipo: string, quantidade: int, responsavel: string)
  {
    IsKind(tipo) && quantidade > 0 && !IsBlank(responsavel)
  }

  /**
   `MovimentacaoService.registrar_movimentacao`: kind, quantity and a
   non-blank responsible party are checked in that order; an outbound
   movement also needs the item to exist with enough stock. Whatever
   passes goes to `registrar`, whose refusals come back as `Storage`.
   */
  function RegisterMovement(db: Db, itemId: int, tipo: string, quantidade: int, responsavel: string,
                            motivo: Option<string>, now: string, up: bool): (r: (Result<int, MovementError>, Db))
    ensures r.0.Err? ==> r.1 == db
    ensures r.0 == Err(InvalidKind) <==> !IsKind(tipo)
    ensures r.0 == Err(NotPositive) <==> IsKind(tipo) && quantidade <= 0
    ensures r.0 == Err(BlankResponsible) <==> IsKind(tipo) && quantidade > 0 && IsBlank(responsavel)
    ensures r.0 == Err(ItemNotFound) <==>
      Admissible(tipo, quantidade, responsavel) && tipo == Saida && !(up && itemId in db.itens)
    ensures (r.0.Err? && r.0.error.InsufficientStock?) <==>
      && Admissible(tipo, quantidade, responsavel) && tipo == Saida && up && itemId in db.itens
      && db.itens[itemId].quantidade < quantidade
    ensures r.0.Err? && r.0.error.InsufficientStock? ==> r.0.error.available == db.itens[itemId].quantidade
    ensures Admissible(tipo, quantidade, responsavel) && tipo == Entrada && up && itemId !in db.itens ==>
      r.0 == Err(Storage(ForeignKey))
    ensures (Admissible(tipo, quantidade, responsavel) && up && itemId in db.itens
             && db.itens[itemId].quantidade + (if tipo == Entrada then quantidade else -quantidade) >= 0) ==> r.0.Ok?
    ensures r.0.Ok? ==> r.1 == Record(db, NewMovement(itemId, tipo, quantidade, responsavel, motivo, now), up).1
    ensures r.0.Err? && r.0.error.Storage? ==> !up || tipo == Entrada
    ensures r.0.Err? && r.0.error.Storage? && up ==>
      itemId !in db.itens || db.itens[itemId].quantidade + quantidade < 0
    ensures r.0.Ok? ==>
      && Admissible(tipo, quantidade, responsavel) && up && itemId in db.itens && itemId in r.1.itens
      && r.1.movimentacoes == db.movimentacoes + [NewMovement(itemId, tipo, quantidade, responsavel, motivo, now).(id := Some(r.0.value))]
      && r.1.itens[itemId].quantidade == db.itens[itemId].quantidade + (if tipo == Entrada then quantidade else -quantidade)
      && r.1.itens[itemId].quantidade >= 0
  {
    StripEmptyIffBlank(responsavel);
    if tipo != Entrada && tipo != Saida then (Err(InvalidKind), db)
    else if quantidade <= 0 then (Err(NotPositive), db)
    else if Strip(responsavel) == "" then (Err(BlankResponsible), db)
    else
      var stockFault :=
        if tipo != Saida then None
        else match ItemRepository.FindById(db, itemId, up)
          case None => Some(ItemNotFound)
          case Some(it) => if it.quantidade < quantidade then Some(InsufficientStock(it.quantidade)) else None;
      if stockFault.Some? then (Err(stockFault.value), db)
      else
        var (res, db') := Record(db, NewMovement(itemId, tipo, quantidade, responsavel, motivo, now), up);
        match res
        case Ok(id) => (Ok(id), db')
        case Err(e) => (Err(Storage(e)), db)
  }

  /** Registering keeps the schema constraints, the ledger relation and the timestamp format. */
  lemma RegisterPreservesInvariants(db: Db, itemId: int, tipo: string, quantidade: int, responsavel: string,
                                    motivo: Option<string>, now: string, up: bool)
    requires Valid(db) && Balanced(db) && Timestamped(db) && Dates.IsTimestamp(now)
    ensures var after := RegisterMovement(db, itemId, tipo, quantidade, responsavel, motivo, now, up).1;
      Valid(after) && Balanced(after) && Timestamped(after)
  {
    var m := NewMovement(itemId, tipo, quantidade, responsavel, motivo, now);
    RecordPreservesValid(db, m, up);
    RecordPreservesBalance(db, m, up);
    RecordPreservesTimestamped(db, m, up);
  }

  /**
   For an outbound movement on an existing item the service's stock check
   refuses exactly what the schema's `CHECK(quantidade >= 0)` would.
   */
  lemma StockCheckMatchesSchema(db: Db, itemId: int, quantidade: int, responsavel: string,
                                motivo: Option<string>, now: string)
    requires Admissible(Saida, quantidade, responsavel) && itemId in db.itens
    ensures var r := RegisterMovement(db, itemId, Saida, quantidade, responsavel, motivo, now, true);
      (r.0.Err? && r.0.error.InsufficientStock?) <==>
      Record(db, NewMovement(itemId, Saida, quantidade, responsavel, motivo, now), true).0 == Err(StockCheck)
  {
  }

  /**
   What the service accepts, `Movimentacao.validar` accepts as well once
   the clock gives a proper timestamp; the converse fails, since validar
   takes a responsible party of spaces.
   */
  lemma ServiceChecksImplyValidation(tipo: string, quantidade: int, responsavel: string)
    requires Admissible(tipo, quantidade, responsavel)
    ensures forall itemId, motivo, now :: Dates.IsTimestamp(now) ==>
      ValidateMovement(NewMovement(itemId, tipo, quantidade, responsavel, motivo, now)) == None
    ensures forall now :: Dates.IsTimestamp(now) ==> ValidateMovement(NewMovement(1, Entrada, 1, " ", None, now)) == None
    ensures !Admissible(Entrada, 1, " ")
  {
    assert responsavel != "";
    assert IsSpace(" "[0]);
  }

  /** `MovimentacaoService.listar_todas`: the user's `DD/MM/YYYY` bounds converted, then the repository listing. */
  function DbBound(d: Option<string>): (r: Option<string>)
    ensures Given(d) <==> Given(r)
    ensures Given(d) && Dates.IsBrDate(d.value) ==> Dates.Denotes(d.value, r.value)
    ensures Given(d) && !Dates.IsBrDate(d.value) ==> r.value == d.value
  {
    if Given(d) then Some(Dates.ToDbDate(d.value)) else None
  }

  function ListAllInPeriod(db: Db, dataInicio: Option<string>, dataFim: Option<string>, up: bool): (r: seq<Movimentacao>)
    ensures !up ==> r == []
    ensures up ==> SortedBy(r, DataOf, true)
    ensures up ==> multiset(r) == multiset(Window(db.movimentacoes, DbBound(dataInicio), DbBound(dataFim)))
    ensures up ==> forall m :: m in r <==> m in db.movimentacoes && InWindow(m, DbBound(dataInicio), DbBound(dataFim))
  {
    ListAll(db, DbBound(dataInicio), DbBound(dataFim), up)
  }

  /** The literal lower bound the service uses to fetch "all earlier" movements. */
  const Floor: string := "0000-01-01"

  datatype Statement = Statement(movimentacoes: seq<Movimentacao>, saldoInicial: int, saldoFinal: int)

  /**
   `MovimentacaoService.historico_por_item`: the period listing, an opening
   balance replayed from `saldo_inicial` over the movements dated before
   the start (all of them when no start is given), and a closing balance
   that adds the period's movements. An unknown item gives `([], 0, 0)`.
   */
  function History(db: Db, itemId: int, dataInicio: Option<string>, dataFim: Option<string>, up: bool): (r: Statement)
    ensures !(up && itemId in db.itens) ==> r == Statement([], 0, 0)
    ensures up && itemId in db.itens ==>
      && SortedBy(r.movimentacoes, DataOf, true)
      && forall m :: m in r.movimentacoes <==>
           m in db.movimentacoes && m.itemId == itemId && InWindow(m, DbBound(dataInicio), DbBound(dataFim))
    ensures up && itemId in db.itens ==>
      multiset(r.movimentacoes) == multiset(Window(MovesOf(db.movimentacoes, itemId), DbBound(dataInicio), DbBound(dataFim)))
    ensures r.saldoFinal == r.saldoInicial + Inflow(r.movimentacoes) - Outflow(r.movimentacoes)
  {
    var startDb := DbBound(dataInicio);
    var window := ListByItem(db, itemId, startDb, DbBound(dataFim), up);
    match ItemRepository.FindById(db, itemId, up)
    case None => Statement([], 0, 0)
    case Some(it) =>
      var earlier := ListByItem(db, itemId, if Given(dataInicio) then Some(Floor) else None, None, up);
      var replayed := if Given(dataInicio) then Before(earlier, startDb.value) else earlier;
      var opening := it.saldoInicial + Net(replayed);
      NetIsInflowMinusOutflow(window);
      Statement(window, opening, opening + Net(window))
  }

  lemma OwnMovesTimestamped(db: Db, itemId: int)
    requires Timestamped(db)
    ensures forall i :: 0 <= i < |MovesOf(db.movimentacoes, itemId)| ==>
      Dates.IsTimestamp(MovesOf(db.movimentacoes, itemId)[i].data)
  {
    var own := MovesOf(db.movimentacoes, itemId);
    forall i | 0 <= i < |own|
      ensures Dates.IsTimestamp(own[i].data)
    {
      assert own[i] in db.movimentacoes;
      var j :| 0 <= j < |db.movimentacoes| && db.movimentacoes[j] == own[i];
    }
  }

  /** The "earlier" listing with the `0000-01-01` floor misses none of the item's movements. */
  lemma FloorListsEverything(db: Db, itemId: int)
    requires Timestamped(db)
    ensures multiset(ListByItem(db, itemId, Some(Floor), None, true)) == multiset(MovesOf(db.movimentacoes, itemId))
  {
    var own := MovesOf(db.movimentacoes, itemId);
    OwnMovesTimestamped(db, itemId);
    forall i | 0 <= i < |own|
      ensures InWindow(own[i], Some(Floor), None)
    {
      Dates.TimestampAfterFloor(own[i].data);
    }
    WindowKeepsAll(own, Some(Floor), None);
  }

  /**
   With a start date the opening balance is `saldo_inicial` plus every
   movement of the item dated before the converted start.
   */
  lemma OpeningWithStart(db: Db, itemId: int, dataInicio: Option<string>, dataFim: Option<string>)
    requires Timestamped(db) && itemId in db.itens && Given(dataInicio)
    ensures History(db, itemId, dataInicio, dataFim, true).saldoInicial ==
      db.itens[itemId].saldoInicial + Net(Before(MovesOf(db.movimentacoes, itemId), DbBound(dataInicio).value))
  {
    FloorListsEverything(db, itemId);
    BeforePermutation(ListByItem(db, itemId, Some(Floor), None, true), MovesOf(db.movimentacoes, itemId), DbBound(dataInicio).value);
  }

  lemma {:induction false} StartOnlyWindowIsFrom(ms: seq<Movimentacao>, bound: string)
    requires bound != ""
    ensures Window(ms, Some(bound), None) == From(ms, bound)
  {
    if |ms| > 0 {
      StartOnlyWindowIsFrom(ms[1..], bound);
    }
  }

  /**
   With a start date and no end date the statement closes on the item's
   current stock: the part before and the part from the start add up to
   the whole ledger.
   */
  lemma ClosingWithStartOnlyIsStock(db: Db, itemId: int, dataInicio: Option<string>)
    requires Timestamped(db) && Balanced(db) && itemId in db.itens && Given(dataInicio)
    ensures History(db, itemId, dataInicio, None, true).saldoFinal == db.itens[itemId].quantidade
  {
    var own := MovesOf(db.movimentacoes, itemId);
    var b := DbBound(dataInicio).value;
    OpeningWithStart(db, itemId, dataInicio, None);
    StartOnlyWindowIsFrom(own, b);
    NetPermutation(ListByItem(db, itemId, DbBound(dataInicio), None, true), From(own, b));
    NetSplitAtDate(own, b);
  }

  /**
   Without a start date the "earlier" replay runs over every movement, so
   the opening balance is already the current stock.
   */
  lemma OpeningWithoutStartIsStock(db: Db, itemId: int, dataFim: Option<string>)
    requires Balanced(db) && itemId in db.itens
    ensures History(db, itemId, None, dataFim, true).saldoInicial == db.itens[itemId].quantidade
  {
    UnboundedListingReconciles(db, itemId);
  }

  /**
   The statement and the period listing use the same converted bounds:
   the statement lists exactly the item's share of the period listing,
   each movement as often as there.
   */
  lemma HistoryIsItemShareOfPeriod(db: Db, itemId: int, dataInicio: Option<string>, dataFim: Option<string>)
    requires itemId in db.itens
    ensures forall m ::
      multiset(History(db, itemId, dataInicio, dataFim, true).movimentacoes)[m] ==
      (if m.itemId == itemId then multiset(ListAllInPeriod(db, dataInicio, dataFim, true))[m] else 0)
  {
    var start, end := DbBound(dataInicio), DbBound(dataFim);
    MovesOfCount(db.movimentacoes, itemId);
    WindowCount(MovesOf(db.movimentacoes, itemId), start, end);
    WindowCount(db.movimentacoes, start, end);
  }

  /**
   The converted end date `D` is compared as `data <= 'D'`, so the
   statement lists no movement of day `D` itself.
   */
  lemma HistoryOmitsEndDay(db: Db, itemId: int, dataInicio: Option<string>, dataFim: Option<string>)
    requires Timestamped(db) && Given(dataFim) && Dates.IsBrDate(dataFim.value)
    ensures Dates.Denotes(dataFim.value, DbBound(dataFim).value)
    ensures forall m :: m in History(db, itemId, dataInicio, dataFim, true).movimentacoes ==>
      StrLt(Dates.Day(m.data), DbBound(dataFim).value)
  {
    var d := DbBound(dataFim).value;
    forall m | m in History(db, itemId, dataInicio, dataFim, true).movimentacoes
      ensures StrLt(Dates.Day(m.data), d)
    {
      var i :| 0 <= i < |db.movimentacoes| && db.movimentacoes[i] == m;
      Dates.UpperDayBoundExcludesDay(m.data, d);
    }
  }

  /**
   With no dates at all the period movements are added a second time:
   the closing balance is `2 * quantidade - saldo_inicial`, not the stock.
   */
  lemma UnboundedHistoryCountsTwice(db: Db, itemId: int)
    requires Balanced(db) && itemId in db.itens
    ensures var h := History(db, itemId, None, None, true);
      h.saldoFinal == 2 * db.itens[itemId].quantidade - db.itens[itemId].saldoInicial
  {
    UnboundedListingReconciles(db, itemId);
  }
}

=== FILE: records.dfy ===
/** Optional values and explicit error results. */
module Results {

  datatype Option<+T> = None | Some(value: T)

  datatype Result<+T, +E> = Ok(value: T) | Err(error: E)
}

/**
 The two records of the system, `Item` and `Movimentacao`, with their
 `validar` methods. A Python `ValueError` raised by `validar` becomes the
 first failed check as a value; `None` means the record passed.
 */
module Records {
  import opened Results
  import opened Dates

  const Entrada: string := "entrada"
  const Saida: string := "saída"

  /** The closed set of movement kinds. */
  predicate IsKind(tipo: string)
  {
    tipo == Entrada || tipo == Saida
  }

  const MaxNameLength: int := 100

  /**
   An inventory item. `preco` is a Python float; the model only ever
   compares it with zero, so a `real` stands in for it.
   */
  datatype Item = Item(
    id: Option<int>,
    nome: string,
    marca: Option<string>,
    quantidade: int,
    saldoInicial: int,
    unidade: Option<string>,
    preco: real,
    tipo: string,
    descricao: Option<string>,
    dataValidade: Option<string>)

  /** A stock movement: `tipo` is kept as the stored text, valid or not. */
  datatype Movimentacao = Movimentacao(
    id: Option<int>,
    itemId: int,
    tipo: string,
    quantidade: int,
    data: string,
    responsavel: string,
    motivo: Option<string>)

  /** `Item()` with every field at its declared default. */
  const DefaultItem: Item := Item(None, "", None, 0, 0, None, 0.0, "", None, None)

  /** `Movimentacao()` with every field at its declared default. */
  const DefaultMovimentacao: Movimentacao := Movimentacao(None, 0, "", 0, "", "", None)

  datatype ItemFault = NameLength | NegativeQuantity | NegativePrice | BadExpiryDate

  function ItemFaultMessage(f: ItemFault): string
  {
    match f
    case NameLength => "Nome deve ter entre 1 e 100 caracteres"
    case NegativeQuantity => "Quantidade não pode ser negativa"
    case NegativePrice => "Preço não pode ser negativo"
    case BadExpiryDate => "Data deve estar no formato AAAA-MM-DD"
  }

  predicate NameOk(nome: string)
  {
    0 < |nome| <= MaxNameLength
  }

  /** An absent or empty expiry date is not checked; a present one must parse. */
  predicate ExpiryOk(d: Option<string>)
  {
    d == None || d.value == "" || IsIsoDate(d.value)
  }

  /** Every check of `Item.validar` passes. */
  predicate ItemFieldsOk(it: Item)
  {
    NameOk(it.nome) && it.quantidade >= 0 && it.preco >= 0.0 && ExpiryOk(it.dataValidade)
  }

  /** `Item.validar`: checks name, quantity, price and expiry date, in that order. */
  function ValidateItem(it: Item): (r: Option<ItemFault>)
    ensures r == None <==> ItemFieldsOk(it)
    ensures r == Some(NameLength) <==> !NameOk(it.nome)
    ensures r == Some(NegativeQuantity) <==> NameOk(it.nome) && it.quantidade < 0
    ensures r == Some(NegativePrice) <==> NameOk(it.nome) && it.quantidade >= 0 && it.preco < 0.0
    ensures r == Some(BadExpiryDate) <==>
      NameOk(it.nome) && it.quantidade >= 0 && it.preco >= 0.0 && !ExpiryOk(it.dataValidade)
  {
    if !(0 < |it.nome| <= MaxNameLength) then Some(NameLength)
    else if it.quantidade < 0 then Some(NegativeQuantity)
    else if it.preco < 0.0 then Some(NegativePrice)
    else if it.dataValidade.Some? && it.dataValidade.value != "" && !IsIsoDate(it.dataValidade.value) then
      Some(BadExpiryDate)
    else None
  }

  /** A default-constructed item is refused for its empty name. */
  lemma DefaultItemRejected()
    ensures DefaultItem.id == None && DefaultItem.quantidade == 0 && DefaultItem.saldoInicial == 0
    ensures ValidateItem(DefaultItem) == Some(NameLength)
  {
  }

  datatype MovementFault = BadKind | NonPositiveQuantity | MissingResponsible | BadTimestamp

  function MovementFaultMessage(f: MovementFault): string
  {
    match f
    case BadKind => "Tipo deve ser 'entrada' ou 'saída'"
    case NonPositiveQuantity => "Quantidade deve ser positiva"
    case MissingResponsible => "Responsável é obrigatório"
    case BadTimestamp => "Data em formato inválido"
  }

  /** Every check of `Movimentacao.validar` passes. */
  predicate MovementFieldsOk(m: Movimentacao)
  {
    IsKind(m.tipo) && m.quantidade > 0 && m.responsavel != "" && IsTimestamp(m.data)
  }

  /**
   `Movimentacao.validar`: checks kind, quantity, responsible party and
   timestamp, in that order; the responsible party is not stripped here.
   */
  function ValidateMovement(m: Movimentacao): (r: Option<MovementFault>)
    ensures r == None <==> MovementFieldsOk(m)
    ensures r == Some(BadKind) <==> !IsKind(m.tipo)
    ensures r == Some(NonPositiveQuantity) <==> IsKind(m.tipo) && m.quantidade <= 0
    ensures r == Some(MissingResponsible) <==> IsKind(m.tipo) && m.quantidade > 0 && m.responsavel == ""
    ensures r == Some(BadTimestamp) <==>
      IsKind(m.tipo) && m.quantidade > 0 && m.responsavel != "" && !IsTimestamp(m.data)
  {
    if m.tipo != Entrada && m.tipo != Saida then Some(BadKind)
    else if m.quantidade <= 0 then Some(NonPositiveQuantity)
    else if |m.responsavel| == 0 then Some(MissingResponsible)
    else if !IsTimestamp(m.data) then Some(BadTimestamp)
    else None
  }

  /** A default-constructed movement is refused for its empty kind. */
  lemma DefaultMovementRejected()
    ensures ValidateMovement(DefaultMovimentacao) == Some(BadKind)
  {
  }
}

=== FILE: schema.dfy ===
/**
 The database as one immutable value: table `itens` keyed by id, table
 `movimentacoes` in insertion (rowid) order, and the two AUTOINCREMENT
 counters. The predicates state the constraints the schema declares
 (CHECKs, NOT NULL, the foreign key with cascade delete) and the ledger
 relation the stock engine is meant to keep.
 */
module Schema {
  import opened Results
  import opened Records
  import opened Ledger
  import Dates

  datatype Db = Db(
    itens: map<int, Item>,
    movimentacoes: seq<Movimentacao>,
    nextItemId: int,
    nextMovId: int)

  /** A freshly created database: both tables empty, both counters at 1. */
  const EmptyDb: Db := Db(map[], [], 1, 1)

  /** Why SQLite refused a statement; each aborts the whole transaction. */
  datatype DbError =
    | StockCheck      // CHECK(quantidade >= 0) on itens
    | PriceCheck      // CHECK(preco >= 0) on itens
    | KindCheck       // CHECK(tipo IN ('entrada', 'saída')) on movimentacoes
    | QuantityCheck   // CHECK(quantidade > 0) on movimentacoes
    | ForeignKey      // FOREIGN KEY(item_id) REFERENCES itens(id)
    | Unavailable     // the connection or the commit failed

  function DbErrorText(e: DbError): string
  {
    match e
    case StockCheck => "CHECK constraint failed: quantidade >= 0"
    case PriceCheck => "CHECK constraint failed: preco >= 0"
    case KindCheck => "CHECK constraint failed: tipo IN ('entrada', 'saída')"
    case QuantityCheck => "CHECK constraint failed: quantidade > 0"
    case ForeignKey => "FOREIGN KEY constraint failed"
    case Unavailable => "unable to open database file"
  }

  /** The first CHECK of table `itens` a row violates, in declaration order. */
  function ItemRowCheck(it: Item): (r: Option<DbError>)
    ensures r == None <==> it.quantidade >= 0 && it.preco >= 0.0
    ensures r != None ==> r == Some(StockCheck) || r == Some(PriceCheck)
  {
    if it.quantidade < 0 then Some(StockCheck)
    else if it.preco < 0.0 then Some(PriceCheck)
    else None
  }

  /** The first CHECK of table `movimentacoes` a row violates, in declaration order. */
  function MovementRowCheck(m: Movimentacao): (r: Option<DbError>)
    ensures r == None <==> IsKind(m.tipo) && m.quantidade > 0
    ensures r != None ==> r == Some(KindCheck) || r == Some(QuantityCheck)
  {
    if !IsKind(m.tipo) then Some(KindCheck)
    else if m.quantidade <= 0 then Some(QuantityCheck)
    else None
  }

  function MovId(m: Movimentacao): int
  {
    if m.id.Some? then m.id.value else 0
  }

  /** Every item row carries its own key, an id below the counter, and passes the CHECKs. */
  predicate ItemsWellFormed(db: Db)
  {
    && db.nextItemId >= 1
    && forall k :: k in db.itens ==>
         && 1 <= k < db.nextItemId
         && db.itens[k].id == Some(k)
         && db.itens[k].quantidade >= 0
         && db.itens[k].preco >= 0.0
  }

  /** Every movement row has an id below the counter, ids grow with rowid order, and the CHECKs hold. */
  predicate MovementsWellFormed(db: Db)
  {
    && db.nextMovId >= 1
    && (forall i :: 0 <= i < |db.movimentacoes| ==>
          && db.movimentacoes[i].id.Some?
          && 1 <= MovId(db.movimentacoes[i]) < db.nextMovId
          && IsKind(db.movimentacoes[i].tipo)
          && db.movimentacoes[i].quantidade > 0)
    && (forall i, j :: 0 <= i < j < |db.movimentacoes| ==>
          MovId(db.movimentacoes[i]) < MovId(db.movimentacoes[j]))
  }

  /** FOREIGN KEY(item_id) REFERENCES itens(id), enforced since every connection sets `foreign_keys = ON`. */
  predicate ReferencesResolve(db: Db)
  {
    forall i :: 0 <= i < |db.movimentacoes| ==> db.movimentacoes[i].itemId in db.itens
  }

  /** Everything the schema itself enforces. */
  predicate Valid(db: Db)
  {
    ItemsWellFormed(db) && MovementsWellFormed(db) && ReferencesResolve(db)
  }

  /** The ledger relation: `quantidade = saldo_inicial + Σentrada − Σsaída` for every item. */
  predicate Balanced(db: Db)
  {
    forall k :: k in db.itens ==>
      db.itens[k].quantidade == db.itens[k].saldoInicial + Net(MovesOf(db.movimentacoes, k))
  }

  /** Every stored movement date is a well-formed `YYYY-MM-DD HH:MM:SS`. */
  predicate Timestamped(db: Db)
  {
    forall i :: 0 <= i < |db.movimentacoes| ==> Dates.IsTimestamp(db.movimentacoes[i].data)
  }

  lemma LeastExists(s: set<int>)
    requires s != {}
    ensures exists k :: k in s && forall j :: j in s ==> k <= j
    decreases |s|
  {
    if forall z :: z !in s {
      assert false;
    }
    var x :| x in s;
    if forall z :: z in s ==> z == x {
      assert forall j :: j in s ==> x <= j;
    } else {
      var z :| z in s && z != x;
      var t := s - {x};
      assert z in t;
      LeastExists(t);
      var y :| y in t && forall j :: j in t ==> y <= j;
      var m := if x < y then x else y;
      assert m in s;
      forall j | j in s
        ensures m <= j
      {
        if j != x {
          assert j in t;
        }
      }
    }
  }

  function Least(s: set<int>): (k: int)
    requires s != {}
    ensures k in s && forall j :: j in s ==> k <= j
  {
    LeastExists(s);
    var k :| k in s && forall j :: j in s ==> k <= j;
    k
  }

  /** The keys of a table in ascending order: the order of a rowid scan. */
  function RowIds(s: set<int>): (r: seq<int>)
    ensures forall k :: k in r <==> k in s
    ensures forall i, j :: 0 <= i < j < |r| ==> r[i] < r[j]
    decreases |s|
  {
    if s == {} then []
    else
      var k := Least(s);
      [k] + RowIds(s - {k})
  }

  /** `x` is a row of the `itens` table, stored under some key. */
  predicate IsRow(db: Db, x: Item)
  {
    exists k :: k in db.itens && db.itens[k] == x
  }

  /** The rows stored under `ids`, in that order. */
  function RowsAt(db: Db, ids: seq<int>): (r: seq<Item>)
    requires forall i :: 0 <= i < |ids| ==> ids[i] in db.itens
    ensures |r| == |ids| && forall i :: 0 <= i < |ids| ==> r[i] == db.itens[ids[i]]
  {
    seq(|ids|, i requires 0 <= i < |ids| => db.itens[ids[i]])
  }

  lemma RowsAtCover(db: Db, ids: seq<int>)
    requires forall i :: 0 <= i < |ids| ==> ids[i] in db.itens
    requires forall k :: k in db.itens ==> k in ids
    ensures forall x :: x in RowsAt(db, ids) <==> IsRow(db, x)
  {
    forall x | IsRow(db, x)
      ensures x in RowsAt(db, ids)
    {
      RowAtSomeIndex(db, ids, x);
    }
    forall x | x in RowsAt(db, ids)
      ensures IsRow(db, x)
    {
      var i :| 0 <= i < |ids| && RowsAt(db, ids)[i] == x;
      var k := ids[i];
      assert k in db.itens && db.itens[k] == x;
    }
  }

  lemma RowAtSomeIndex(db: Db, ids: seq<int>, x: Item)
    requires forall i :: 0 <= i < |ids| ==> ids[i] in db.itens
    requires forall k :: k in db.itens ==> k in ids
    requires IsRow(db, x)
    ensures x in RowsAt(db, ids)
  {
    var k :| k in db.itens && db.itens[k] == x;
    assert k in ids;
    var i :| 0 <= i < |ids| && ids[i] == k;
    assert RowsAt(db, ids)[i] == x;
  }

  lemma RowsAtDistinct(db: Db, ids: seq<int>)
    requires ItemsWellFormed(db) && forall i :: 0 <= i < |ids| ==> ids[i] in db.itens
    requires forall i, j :: 0 <= i < j < |ids| ==> ids[i] < ids[j]
    ensures forall i, j :: 0 <= i < j < |ids| ==> RowsAt(db, ids)[i].id != RowsAt(db, ids)[j].id
  {
    var r := RowsAt(db, ids);
    forall i, j | 0 <= i < j < |ids|
      ensures r[i].id != r[j].id
    {
      assert r[i] == db.itens[ids[i]] && r[j] == db.itens[ids[j]];
      assert r[i].id == Some(ids[i]) && r[j].id == Some(ids[j]);
    }
  }

  /** `SELECT * FROM itens` without ORDER BY: every row once, in rowid order. */
  function ItemRows(db: Db): (r: seq<Item>)
    ensures forall x :: x in r <==> IsRow(db, x)
    ensures |r| == |db.itens|
    ensures ItemsWellFormed(db) ==> forall i, j :: 0 <= i < j < |r| ==> r[i].id != r[j].id
  {
    var ids := RowIds(db.itens.Keys);
    DistinctSeqSize(ids, db.itens.Keys);
    forall i | 0 <= i < |ids|
      ensures ids[i] in db.itens
    {
      assert ids[i] in ids;
    }
    RowsAtCover(db, ids);
    if ItemsWellFormed(db) then
      RowsAtDistinct(db, ids);
      RowsAt(db, ids)
    else
      RowsAt(db, ids)
  }

  lemma DistinctSeqSize(ids: seq<int>, s: set<int>)
    requires forall k :: k in ids <==> k in s
    requires forall i, j :: 0 <= i < j < |ids| ==> ids[i] < ids[j]
    ensures |ids| == |s|
    decreases |ids|
  {
    if |ids| > 0 {
      var t := s - {ids[0]};
      forall k ensures k in ids[1..] <==> k in t {
        if k in ids[1..] {
          var i :| 1 <= i < |ids| && ids[i] == k;
          assert ids[0] < ids[i];
        }
      }
      DistinctSeqSize(ids[1..], t);
    } else {
      assert forall k :: k in s ==> k in ids;
      assert s == {};
    }
  }
}

=== FILE: sorting.dfy ===
/**
 `ORDER BY key [DESC]` over string keys, as SQLite evaluates it with the
 BINARY collation. SQL leaves the order of equal keys unspecified, so the
 contract of `SortBy` is exactly "ordered by the key and a permutation of
 its input"; the insertion sort below is one order SQLite may return.
 */
module Sorting {
  import opened Text

  /** `a` may come before `b` in the requested direction. */
  predicate Ranked(a: string, b: string, desc: bool)
  {
    if desc then StrLe(b, a) else StrLe(a, b)
  }

  predicate SortedBy<T>(s: seq<T>, key: T -> string, desc: bool)
  {
    forall i, j :: 0 <= i < j < |s| ==> Ranked(key(s[i]), key(s[j]), desc)
  }

  lemma RankedTotal(a: string, b: string, desc: bool)
    ensures Ranked(a, b, desc) || Ranked(b, a, desc)
  {
    StrLeTotal(a, b);
  }

  lemma RankedTransitive(a: string, b: string, c: string, desc: bool)
    requires Ranked(a, b, desc) && Ranked(b, c, desc)
    ensures Ranked(a, c, desc)
  {
    if desc {
      StrLeTransitive(c, b, a);
    } else {
      StrLeTransitive(a, b, c);
    }
  }

  /** A head ranked before every element of a sorted tail gives a sorted sequence. */
  lemma ConsSorted<T>(h: T, s: seq<T>, key: T -> string, desc: bool)
    requires SortedBy(s, key, desc)
    requires forall j :: 0 <= j < |s| ==> Ranked(key(h), key(s[j]), desc)
    ensures SortedBy([h] + s, key, desc)
  {
    var r := [h] + s;
    forall i, j | 0 <= i < j < |r|
      ensures Ranked(key(r[i]), key(r[j]), desc)
    {
      if i == 0 {
        assert r[j] == s[j - 1];
      } else {
        assert r[i] == s[i - 1] && r[j] == s[j - 1];
      }
    }
  }

  /** The head of a sorted sequence is ranked before every later element. */
  lemma HeadRanksFirst<T>(s: seq<T>, key: T -> string, desc: bool)
    requires SortedBy(s, key, desc) && |s| > 0
    ensures forall j :: 0 <= j < |s| ==> Ranked(key(s[0]), key(s[j]), desc)
  {
    forall j | 0 <= j < |s|
      ensures Ranked(key(s[0]), key(s[j]), desc)
    {
      if j == 0 {
        StrLeReflexive(key(s[0]));
      }
    }
  }

  /** Everything in `rest`, a rearrangement of `x` and a sorted tail, ranks after the head `h`. */
  lemma HeadRanksInserted<T>(h: T, x: T, tail: seq<T>, rest: seq<T>, key: T -> string, desc: bool)
    requires forall j :: 0 <= j < |tail| ==> Ranked(key(h), key(tail[j]), desc)
    requires Ranked(key(h), key(x), desc)
    requires multiset(rest) == multiset(tail) + multiset{x}
    ensures forall j :: 0 <= j < |rest| ==> Ranked(key(h), key(rest[j]), desc)
  {
    forall j | 0 <= j < |rest|
      ensures Ranked(key(h), key(rest[j]), desc)
    {
      assert rest[j] in multiset(rest);
      if rest[j] != x {
        assert rest[j] in multiset(tail);
        var k :| 0 <= k < |tail| && tail[k] == rest[j];
      }
    }
  }

  function Insert<T>(x: T, s: seq<T>, key: T -> string, desc: bool): (r: seq<T>)
    requires SortedBy(s, key, desc)
    ensures SortedBy(r, key, desc)
    ensures multiset(r) == multiset(s) + multiset{x}
    decreases |s|
  {
    if |s| == 0 then [x]
    else if Ranked(key(x), key(s[0]), desc) then
      HeadRanksFirst(s, key, desc);
      forall j | 0 <= j < |s|
        ensures Ranked(key(x), key(s[j]), desc)
      {
        RankedTransitive(key(x), key(s[0]), key(s[j]), desc);
      }
      ConsSorted(x, s, key, desc);
      [x] + s
    else
      var rest := Insert(x, s[1..], key, desc);
      RankedTotal(key(x), key(s[0]), desc);
      HeadRanksFirst(s, key, desc);
      assert forall j :: 0 <= j < |s[1..]| ==> Ranked(key(s[0]), key(s[1..][j]), desc) by {
        forall j | 0 <= j < |s[1..]|
          ensures Ranked(key(s[0]), key(s[1..][j]), desc)
        {
          assert s[1..][j] == s[j + 1];
        }
      }
      HeadRanksInserted(s[0], x, s[1..], rest, key, desc);
      ConsSorted(s[0], rest, key, desc);
      assert s == [s[0]] + s[1..];
      [s[0]] + rest
  }

  function SortBy<T>(s: seq<T>, key: T -> string, desc: bool): (r: seq<T>)
    ensures SortedBy(r, key, desc)
    ensures multiset(r) == multiset(s)
    decreases |s|
  {
    if |s| == 0 then []
    else
      var r := Insert(s[0], SortBy(s[1..], key, desc), key, desc);
      assert s == [s[0]] + s[1..];
      r
  }
}

=== FILE: text.dfy ===
/**
 Text primitives shared by the store and the services: the lexicographic
 order SQLite (BINARY collation over UTF-8) and Python use for `str`,
 ASCII case folding as SQLite's LOWER and LIKE apply it, Python's
 `str.strip()`, and the LIKE pattern matcher used by the name search.
 */
module Text {

  /** `a <= b` in code-point lexicographic order. */
  predicate StrLe(a: string, b: string)
    decreases |a|
  {
    |a| == 0 || (|b| > 0 && (a[0] < b[0] || (a[0] == b[0] && StrLe(a[1..], b[1..]))))
  }

  /** `a < b` in code-point lexicographic order. */
  predicate StrLt(a: string, b: string)
  {
    StrLe(a, b) && a != b
  }

  lemma {:induction false} StrLeReflexive(a: string)
    ensures StrLe(a, a)
  {
    if |a| > 0 {
      StrLeReflexive(a[1..]);
    }
  }

  lemma {:induction false} StrLeAntisymmetric(a: string, b: string)
    requires StrLe(a, b) && StrLe(b, a)
    ensures a == b
  {
    if |a| > 0 && |b| > 0 {
      assert a[0] == b[0];
      StrLeAntisymmetric(a[1..], b[1..]);
      assert a == [a[0]] + a[1..];
      assert b == [b[0]] + b[1..];
    }
  }

  lemma {:induction false} StrLeTransitive(a: string, b: string, c: string)
    requires StrLe(a, b) && StrLe(b, c)
    ensures StrLe(a, c)
  {
    if |a| > 0 {
      assert |b| > 0 && |c| > 0;
      if a[0] == b[0] && b[0] == c[0] {
        StrLeTransitive(a[1..], b[1..], c[1..]);
      }
    }
  }

  lemma {:induction false} StrLeTotal(a: string, b: string)
    ensures StrLe(a, b) || StrLe(b, a)
  {
    if |a| > 0 && |b| > 0 && a[0] == b[0] {
      StrLeTotal(a[1..], b[1..]);
    }
  }

  /**
   Comparing two concatenations whose first parts have equal length: the
   first parts decide unless they are equal, and then the second parts do.
   */
  lemma {:induction false} ConcatCompare(a1: string, a2: string, b1: string, b2: string)
    requires |a1| == |b1|
    ensures StrLe(a1 + a2, b1 + b2) <==> StrLt(a1, b1) || (a1 == b1 && StrLe(a2, b2))
  {
    if |a1| == 0 {
      assert a1 + a2 == a2 && b1 + b2 == b2;
    } else {
      assert (a1 + a2)[0] == a1[0] && (b1 + b2)[0] == b1[0];
      assert (a1 + a2)[1..] == a1[1..] + a2;
      assert (b1 + b2)[1..] == b1[1..] + b2;
      ConcatCompare(a1[1..], a2, b1[1..], b2);
      if a1[0] == b1[0] {
        assert a1 == [a1[0]] + a1[1..];
        assert b1 == [b1[0]] + b1[1..];
        assert a1 == b1 <==> a1[1..] == b1[1..];
      }
    }
  }

  /** Equal-length strings that are pointwise `<=` are lexicographically `<=`. */
  lemma {:induction false} PointwiseLe(a: string, b: string)
    requires |a| == |b|
    requires forall i :: 0 <= i < |a| ==> a[i] <= b[i]
    ensures StrLe(a, b)
  {
    if |a| > 0 {
      PointwiseLe(a[1..], b[1..]);
    }
  }

  /** ASCII case folding: SQLite's LOWER() and its LIKE only fold A-Z. */
  function FoldChar(c: char): (r: char)
    ensures 'A' <= c <= 'Z' ==> 'a' <= r <= 'z'
    ensures !('A' <= c <= 'Z') ==> r == c
  {
    if 'A' <= c <= 'Z' then (c as int + 32) as char else c
  }

  function Lower(s: string): (r: string)
    ensures |r| == |s|
    ensures forall i :: 0 <= i < |s| ==> r[i] == FoldChar(s[i])
  {
    seq(|s|, i requires 0 <= i < |s| => FoldChar(s[i]))
  }

  /** The characters Python's `str.isspace()` accepts. */
  predicate IsSpace(c: char)
  {
    || c == ' ' || ('\t' <= c <= '\r') || ('\U{1C}' <= c <= '\U{1F}')
    || c == '\U{85}' || c == '\U{A0}' || c == '\U{1680}'
    || ('\U{2000}' <= c <= '\U{200A}') || c == '\U{2028}' || c == '\U{2029}'
    || c == '\U{202F}' || c == '\U{205F}' || c == '\U{3000}'
  }

  predicate IsBlank(s: string)
  {
    forall i :: 0 <= i < |s| ==> IsSpace(s[i])
  }

  function TrimLeft(s: string): (r: string)
    ensures |r| <= |s| && r == s[|s| - |r|..]
    ensures IsBlank(s[..|s| - |r|])
    ensures |r| > 0 ==> !IsSpace(r[0])
  {
    if |s| > 0 && IsSpace(s[0]) then TrimLeft(s[1..]) else s
  }

  function TrimRight(s: string): (r: string)
    ensures |r| <= |s| && r == s[..|r|]
    ensures IsBlank(s[|r|..])
    ensures |r| > 0 ==> !IsSpace(r[|r| - 1])
  {
    if |s| > 0 && IsSpace(s[|s| - 1]) then TrimRight(s[..|s| - 1]) else s
  }

  /** `r` is `s[i..i + |r|]` and everything around it is whitespace. */
  predicate Margins(s: string, r: string, i: int)
  {
    0 <= i <= |s| - |r| && r == s[i..i + |r|] && IsBlank(s[..i]) && IsBlank(s[i + |r|..])
  }

  /** A left trim `l` of `s` and a right trim `r` of `l` leave `r` between whitespace margins of `s`. */
  lemma TrimMargins(s: string, l: string, r: string)
    requires |l| <= |s| && l == s[|s| - |l|..] && IsBlank(s[..|s| - |l|])
    requires |r| <= |l| && r == l[..|r|] && IsBlank(l[|r|..])
    ensures Margins(s, r, |s| - |l|)
  {
    var k := |s| - |l|;
    assert s[k..k + |r|] == r;
    assert s[k + |r|..] == l[|r|..];
  }

  /** Python's `str.strip()`: drop leading and trailing whitespace. */
  function Strip(s: string): (r: string)
    ensures exists i :: Margins(s, r, i)
    ensures |r| > 0 ==> !IsSpace(r[0]) && !IsSpace(r[|r| - 1])
  {
    var l := TrimLeft(s);
    var r := TrimRight(l);
    TrimMargins(s, l, r);
    assert |r| > 0 ==> r[0] == l[0];
    r
  }

  /** `not s.strip()` holds exactly for the all-whitespace strings. */
  lemma StripEmptyIffBlank(s: string)
    ensures Strip(s) == [] <==> IsBlank(s)
  {
    var r := Strip(s);
    var i :| Margins(s, r, i);
    if r == [] {
      assert s[i..] == s[i + |r|..];
      assert s == s[..i] + s[i..];
    }
  }

  /** SQLite `p LIKE s` without an ESCAPE clause: `%` matches any run, `_` any one character. */
  predicate Like(p: string, s: string)
    decreases |p| + |s|
  {
    if |p| == 0 then |s| == 0
    else if p[0] == '%' then Like(p[1..], s) || (|s| > 0 && Like(p, s[1..]))
    else |s| > 0 && (p[0] == '_' || FoldChar(p[0]) == FoldChar(s[0])) && Like(p[1..], s[1..])
  }

  predicate HasWildcard(t: string)
  {
    exists i :: 0 <= i < |t| && (t[i] == '%' || t[i] == '_')
  }

  /** `t` occurs in `s` at position `i`, ignoring ASCII case. */
  predicate OccursAt(s: string, t: string, i: int)
  {
    0 <= i && i + |t| <= |s| && Lower(s[i..i + |t|]) == Lower(t)
  }

  predicate ContainsIgnoringCase(s: string, t: string)
  {
    exists i :: 0 <= i <= |s| - |t| && OccursAt(s, t, i)
  }

  lemma {:induction false} PercentMatchesAll(s: string)
    ensures Like("%", s)
  {
    if |s| > 0 {
      PercentMatchesAll(s[1..]);
    }
  }

  lemma {:induction false} LeadingPercent(q: string, s: string)
    ensures Like("%" + q, s) <==> exists i :: 0 <= i <= |s| && Like(q, s[i..])
  {
    var p := "%" + q;
    assert p[0] == '%' && p[1..] == q;
    if Like(q, s) {
      assert s[0..] == s;
    }
    if |s| > 0 {
      LeadingPercent(q, s[1..]);
      if Like(p, s[1..]) {
        var i :| 0 <= i <= |s[1..]| && Like(q, s[1..][i..]);
        assert s[1..][i..] == s[i + 1..];
      }
      if exists i :: 0 <= i <= |s| && Like(q, s[i..]) {
        var i :| 0 <= i <= |s| && Like(q, s[i..]);
        if i > 0 {
          assert s[1..][i - 1..] == s[i..];
          assert Like(p, s[1..]);
        } else {
          assert s[0..] == s;
        }
      }
    } else {
      assert s[0..] == s;
    }
  }

  lemma {:induction false} LiteralThenPercent(t: string, u: string)
    requires !HasWildcard(t)
    ensures Like(t + "%", u) <==> |t| <= |u| && Lower(u[..|t|]) == Lower(t)
  {
    if |t| == 0 {
      assert t + "%" == "%";
      PercentMatchesAll(u);
    } else {
      var p := t + "%";
      assert p[0] == t[0] && p[1..] == t[1..] + "%";
      assert !HasWildcard(t[1..]) by {
        forall i | 0 <= i < |t[1..]| ensures t[1..][i] != '%' && t[1..][i] != '_' {
          assert t[1..][i] == t[i + 1];
        }
      }
      assert t[0] != '%' && t[0] != '_';
      if |u| > 0 {
        LiteralThenPercent(t[1..], u[1..]);
        assert Like(p, u) <==> FoldChar(t[0]) == FoldChar(u[0]) && Like(p[1..], u[1..]);
        if |t| <= |u| {
          assert u[..|t|][1..] == u[1..][..|t| - 1];
          LowerCons(u[..|t|], t);
        }
      }
    }
  }

  lemma LowerCons(a: string, b: string)
    requires |a| == |b| > 0
    ensures Lower(a) == Lower(b) <==> FoldChar(a[0]) == FoldChar(b[0]) && Lower(a[1..]) == Lower(b[1..])
  {
    if FoldChar(a[0]) == FoldChar(b[0]) && Lower(a[1..]) == Lower(b[1..]) {
      forall i | 0 <= i < |a| ensures Lower(a)[i] == Lower(b)[i] {
        if i > 0 {
          assert Lower(a[1..])[i - 1] == Lower(b[1..])[i - 1];
        }
      }
    }
    if Lower(a) == Lower(b) {
      assert Lower(a)[0] == Lower(b)[0];
      forall i | 0 <= i < |a| - 1 ensures Lower(a[1..])[i] == Lower(b[1..])[i] {
        assert Lower(a)[i + 1] == Lower(b)[i + 1];
      }
    }
  }

  /**
   The name search pattern `%term%` finds exactly the names containing
   `term` case-insensitively, provided `term` holds no wildcard.
   */
  lemma SearchPatternIsContains(t: string, s: string)
    requires !HasWildcard(t)
    ensures Like("%" + t + "%", s) <==> ContainsIgnoringCase(s, t)
  {
    assert "%" + t + "%" == "%" + (t + "%");
    LeadingPercent(t + "%", s);
    if Like("%" + t + "%", s) {
      var i :| 0 <= i <= |s| && Like(t + "%", s[i..]);
      LiteralThenPercent(t, s[i..]);
      assert s[i..][..|t|] == s[i..i + |t|];
      assert OccursAt(s, t, i);
    }
    if ContainsIgnoringCase(s, t) {
      var i :| 0 <= i <= |s| - |t| && OccursAt(s, t, i);
      LiteralThenPercent(t, s[i..]);
      assert s[i..][..|t|] == s[i..i + |t|];
    }
  }

  lemma {:induction false} SelfMatchThenPercent(t: string, s: string)
    requires |t| <= |s| && Lower(s[..|t|]) == Lower(t)
    ensures Like(t + "%", s)
  {
    if |t| == 0 {
      assert t + "%" == "%";
      PercentMatchesAll(s);
    } else {
      var p := t + "%";
      assert p[0] == t[0] && p[1..] == t[1..] + "%";
      assert Lower(s[..|t|])[0] == Lower(t)[0];
      assert Lower(s[1..][..|t| - 1]) == Lower(t[1..]) by {
        forall i | 0 <= i < |t| - 1
          ensures Lower(s[1..][..|t| - 1])[i] == Lower(t[1..])[i]
        {
          assert Lower(s[..|t|])[i + 1] == Lower(t)[i + 1];
        }
      }
      SelfMatchThenPercent(t[1..], s[1..]);
      if t[0] == '%' {
        assert FoldChar(s[0]) == '%';
        assert s[0] == '%';
        assert Like(p[1..], s[1..]);
        assert Like(p, s[1..]);
      }
    }
  }

  /**
   Whatever characters `t` holds, the pattern `%t%` matches every string
   equal to `t` up to ASCII case, so LIKE never misses an exact name.
   */
  lemma SearchPatternFindsEqualName(t: string, s: string)
    requires Lower(s) == Lower(t)
    ensures Like("%" + t + "%", s)
  {
    assert |s| == |t|;
    assert s[..|t|] == s;
    SelfMatchThenPercent(t, s);
    assert "%" + t + "%" == "%" + (t + "%");
    LeadingPercent(t + "%", s);
    assert s[0..] == s;
  }
}
